=== FILE: README.md ===
# Webhook message service — a Dafny model

This project models the core of a small webhook ingestion service. The
service receives SMS-like messages on `POST /webhook`. It checks an
`X-Signature` header, which is an HMAC-SHA256 of the raw body under a shared
secret. It validates the JSON payload and stores each message at most once,
keyed by `message_id`. It lists the stored messages on `GET /messages` with
filters, a fixed order and paging, and summarises them on `GET /stats`. The
model also covers the fail-closed start-up and readiness checks and the
database-URL normaliser in the settings.

Everything is pure functions and short methods over immutable values:

- the `messages` table is a `map<string, Message>` from `message_id` to its
  row (`MessageStore`);
- a request is its header and raw body bytes;
- the outcome counters (`webhook_requests_total{result=…}`) are a plain
  record that each request returns together with the new store (`Webhook`).

HMAC-SHA256 is the function parameter `mac`. JSON decoding of the body, which
the web framework does, is the function parameter `decode`.

Modules, one per file:

| module | file | models |
|---|---|---|
| `Results` | results.dfy | `Option` (SQL NULL, JSON null, absent field) and `Result` |
| `SqlText` | sqltext.dfy | SQLite BINARY text order; `LIKE` with `%`, `_` and ASCII case folding |
| `Hex` | hex.dfy | lowercase `hexdigest()` and its inverse |
| `Timestamps` | timestamps.dfy | the `ts` format and why its text order is time order |
| `Models` | models.dfy | `Message`, `WebhookPayload` validation, `MessageResponse` with the `from`/`to` aliases |
| `Config` | config.dfy | `Settings` defaults, `fix_sqlite_driver`, Python `str.replace` |
| `MessageStore` | store.dfy | the table and its primary-key insert |
| `Signature` | signature.dfy | `verify_signature` |
| `Webhook` | webhook.dfy | `receive_webhook` and the whole request path |
| `Query` | query.dfy | `list_messages` |
| `Stats` | stats.dfy | `get_stats` |
| `Lifecycle` | lifecycle.dfy | `lifespan` start-up and `/health/ready` |

## Model

| member | source | states |
|---|---|---|
| `SqlText.LikeIsContainsFold` | app/main.py:213-214 | if `q` has no `%` or `_`, the pattern `%q%` matches a text exactly when `q` occurs in it ignoring ASCII case |
| `SqlText.LexLessTotal` | app/main.py:229 | the text order used for sorting ranks any two distinct strings one way or the other |
| `Timestamps.IsoUtcPositions` | app/models.py:55 | a valid `ts` has 20 characters: digits at 0-3, 5-6, 8-9, 11-12, 14-15 and 17-18; `-` at 4 and 7; `T` at 10; `:` at 13 and 16; `Z` at 19 |
| `Timestamps.TimestampOrder` | app/models.py:55 | for two valid timestamps, text order matches the order of the YYYYMMDDhhmmss numbers, and text equality matches numeric equality |
| `Timestamps.TextOrderIsValueOrder` | app/models.py:55 | two strings of one digit template compare as text the way their digit values compare as numbers |
| `Hex.DecodeEncode` | app/main.py:128-132 | the hex digest decodes back to the digest bytes |
| `Hex.EncodeInjective` | app/main.py:128-132 | different digests give different header values |
| `Models.E164Shape` | app/models.py:46-53 | `^\+[1-9]\d{1,14}$` holds exactly for strings of length 3 to 16 made of `+`, a non-zero digit, then digits |
| `Models.FieldErrors` | app/models.py:42-58 | the reported error set is exactly the set of members that fail their constraint |
| `Models.ParsePayload` | app/models.py:38-58 | on success the payload is valid and each field is copied from its wire name; on failure the errors are non-empty and name exactly the failing members; a missing `message_id`, `from`, `to` or `ts` always fails |
| `Models.WireRoundTrip` | app/models.py:38-58 | every valid payload, sent as JSON, is accepted and read back unchanged |
| `Models.ExtraMembersIgnored` | app/models.py:38-58 | members outside the five wire names, including `from_msisdn`, do not change the validation result |
| `Models.ToRow` | app/main.py:152-158 | the row built from a valid payload is a valid row |
| `Models.Dump` | app/models.py:60-73 | a listed item has exactly the keys `message_id`, `from`, `to`, `ts` and `text`, and no `from_msisdn` or `to_msisdn` key |
| `Models.RowResponseRoundTrip` | app/models.py:66-73 | reading a response back gives the row it was made from |
| `Models.ListedItemRoundTrip` | app/models.py:66-73 | a payload, stored as a row and listed as an item, reads back as the same payload: all five client fields survive |
| `Config.FixSqliteDriver` | app/config.py:17-21 | a URL that does not start with `sqlite://`, or that contains `aiosqlite`, comes back unchanged; otherwise the result starts with `sqlite+aiosqlite://` and is `sqlite+aiosqlite://` joined over the `sqlite://` split |
| `Config.FixIdempotent` | app/config.py:17-21 | normalising twice gives the same result as normalising once |
| `Config.DefaultUrlUnchanged` | app/config.py:6 | the default `sqlite+aiosqlite:////data/app.db` passes through unchanged |
| `Config.ReplaceIsSplitJoin` | app/config.py:20 | `s.replace(p, r)` equals `r.join(s.split(p))` |
| `Config.SplitJoin` | app/config.py:20 | joining the split pieces with the pattern restores the string |
| `Config.SplitPiecesFree` | app/config.py:20 | no split piece contains the pattern |
| `Config.ReplaceAbsent` | app/config.py:20 | replacing a pattern that does not occur changes nothing |
| `Config.PathNamingDriverIsNotUpgraded` | app/config.py:19 | any `sqlite://` URL whose path mentions `aiosqlite`, such as `sqlite:////data/aiosqlite.db`, is returned unchanged and keeps the synchronous scheme, where the intended upgrade would change it |
| `Config.UpgradeScheme` | app/config.py:17-21 | a `sqlite://` URL gets `sqlite+aiosqlite://` in place of its scheme and keeps everything after it; other URLs are unchanged |
| `Config.UpgradeSchemeIdempotent` | app/config.py:17-21 | the intended upgrade is idempotent |
| `Config.UpgradeSchemeAgrees` | app/config.py:19-20 | the intended upgrade and the written one agree when the URL names no driver and has `sqlite://` only at its start |
| `Config.Load` | app/config.py:4-7 | the secret defaults to `""`; a missing URL gives the default; a `sqlite://` URL is upgraded; the result never keeps the synchronous scheme |
| `MessageStore.Insert` | app/models.py:18 | a primary-key insert fails exactly on an existing id; otherwise it adds exactly that row and keeps every other row |
| `MessageStore.ValuesCount` | app/models.py:18 | in a store keyed by `message_id`, the number of distinct rows equals the number of keys |
| `Signature.Expected` | app/main.py:128-132 | the expected header is ASCII and twice as long as the digest |
| `Signature.CheckAsWritten` | app/main.py:119-137 | a request passes only with a present, non-empty header equal to the hex HMAC of the body; a non-empty non-ASCII header raises instead of being refused |
| `Signature.NonAsciiHeaderCrashes` | app/main.py:135 | the header `é` makes the comparison raise |
| `Signature.Check` | app/main.py:119-137 | a request passes exactly when the header is present, non-empty and equal to the lowercase hex HMAC-SHA256 of the raw body |
| `Signature.CheckAgreesOnAscii` | app/main.py:134-137 | on ASCII headers the written gate and the intended gate agree |
| `Signature.SignatureBindsBody` | app/main.py:124-137 | if one header passes for two bodies, their HMACs are equal |
| `Signature.TamperedBodyRejected` | app/main.py:124-137 | changing the body so that its HMAC changes turns a passing request into a refused one |
| `Webhook.Ingest` | app/main.py:152-188 | a new id adds exactly one row built from the payload; a duplicate id leaves the store as it was; the outcome is `Created` exactly when the id was new |
| `Webhook.Accept` | app/main.py:144-188 | for a non-empty body after the gate: 400 with nothing changed exactly when the bytes cannot be decoded to text; 200 exactly when the body is a valid payload, with `created` or `duplicate` moving by one; otherwise a 422 with a non-empty error set |
| `Webhook.Handle` | app/main.py:114-188 | 401 exactly when the gate fails; 200 exactly when the gate passes and a non-empty body is a valid payload, so a signed empty body is refused; 400 exactly when the gate passes and the body cannot be decoded to text; a non-200 leaves the store alone; exactly one counter moves by one, except on the 400, where none does; `created` moves exactly when the store grows |
| `Webhook.HandleAsWritten` | app/main.py:144-148 | before the gate runs, a non-empty body that cannot be decoded to text gets a 400 with nothing changed, and one whose decoded text is not JSON gets a 422; a 500 changes nothing |
| `Webhook.AsWrittenAgreesOnJson` | app/main.py:114-148 | for an empty body or one that parses as JSON, with an ASCII header, the source's order and the gate-first handler give the same result |
| `Webhook.MalformedUnsignedBodyGets422` | app/main.py:144-148 | an unsigned request whose non-empty body decodes to text that is not JSON gets a 422 from the source, but a 401 from the gate-first handler |
| `Webhook.UndecodableUnsignedBodyGets400` | app/main.py:144-148 | an unsigned request whose non-empty body cannot be decoded to text (neither UTF-8 nor a detected UTF-16 or UTF-32) gets a 400 with no counter from the source, but a 401 from the gate-first handler |
| `Webhook.EmptyUnsignedBodyGets401` | app/main.py:119-122 | an unsigned request with an empty body is not decoded, so the source and the gate-first handler both answer 401 and count `invalid_signature` |
| `Webhook.NonAsciiSignatureGets500` | app/main.py:134-137 | a non-ASCII header gets a 500 with no counter from the source, but a 401 from the gate-first handler |
| `Webhook.RejectedBeforeDecoding` | app/main.py:114-137 | a request that fails the gate gets the same result whatever its body decodes to |
| `Webhook.RetryIsIdempotent` | app/main.py:160-188 | sending the same request twice gives the same reply both times; the second send leaves the store as the first left it and counts as `duplicate` |
| `Webhook.HandlePreservesAccounted` | app/main.py:160-179 | if rows are keyed by their own ids, are valid, and number the `created` count, every request keeps that true |
| `Webhook.FirstWriteWins` | app/main.py:160-188 | after any sequence of payloads, a pre-existing row is unchanged, each new id holds the row of the first payload that carried it, and no other id appears |
| `Query.BeforeTotal` | app/main.py:229 | `(ts, message_id)` orders any two rows with different ids |
| `Query.RankInjective` | app/main.py:229 | different rows of a store have different positions in the listing order |
| `Query.InsertSorted` | app/main.py:229 | inserting a row with a new id into an ordered listing keeps it ordered and adds exactly that row |
| `Query.SortedRank` | app/main.py:229 | in an ordered listing, the element at position j has exactly j elements before it |
| `Query.SelectSorted` | app/main.py:206-214 | the result is strictly ordered by `(ts, message_id)` and holds exactly the rows that match the filters |
| `Query.SelectPage` | app/main.py:216-233 | `total` counts the matching rows; the page holds the matching rows at positions `offset` to `offset + limit - 1`, in order, and its length is `min(limit, max(0, total - offset))` |
| `Query.ListMessages` | app/main.py:192-244 | a `limit` outside 1..100 or a negative `offset` gives 422 and names the bad parameter; an `offset` above 2^63 - 1, which SQLite cannot bind, gives 500; otherwise the reply echoes the effective `limit` and `offset` (50 and 0 by default), `total` counts the filtered rows whatever the paging, and `data` is the ordered page of those rows |
| `Query.FiltersConjunctive` | app/main.py:209-214 | the rows selected by `from`, `since` and `q` together are the intersection of the rows each selects alone |
| `Query.EmptyFiltersSelectAll` | app/main.py:209-214 | an absent or empty parameter applies no filter |
| `Query.UnfilteredTotalIsRowCount` | app/main.py:216-226 | with no filter, the listing's `total` is the number of rows, the same number `/stats` reports as `total_messages` |
| `Query.QFilterIsSubstring` | app/main.py:213-214 | a `q` without wildcards matches rows whose `text` contains it ignoring ASCII case; a NULL `text` never matches |
| `Query.SinceFilterIsChronological` | app/main.py:211-212 | for a valid row and a valid `since`, the text filter `ts >= since` keeps exactly the rows at or after that instant |
| `Stats.SendersBound` | app/main.py:254-261 | there are never more distinct senders than rows |
| `Stats.CountBySender` | app/main.py:264-271 | each sender's count is the true number of that sender's rows, and is at least 1 |
| `Stats.TopSenders` | app/main.py:264-271 | at most 10 entries, distinct senders, true counts, non-increasing, and no omitted sender has a higher count than a listed one |
| `Stats.TsRange` | app/main.py:273-281 | first and last are None exactly for an empty store; otherwise they are the least and greatest `ts` present, in text order |
| `Stats.GetStats` | app/main.py:247-289 | `total_messages` is the row count; `senders_count` is the number of distinct senders and is at most `total_messages`; `messages_per_sender` is the top-10 list; first ≤ last; an empty store gives zeros, an empty list and no time range |
| `Lifecycle.Start` | app/main.py:40-44 | start-up goes ahead exactly when the secret is non-empty; otherwise it raises `SystemExit(1)` and the service does not start |
| `Lifecycle.Readiness` | app/main.py:296-305 | readiness is 200 exactly when the secret is set, and 503 otherwise |
| `Lifecycle.StartedMeansReady` | app/main.py:40-44 | a process that starts always reports ready, and one that would report not ready never starts |
| `Lifecycle.DefaultSecretRefusesStart` | app/config.py:5 | without `WEBHOOK_SECRET` the secret is `""`, so start-up raises `SystemExit(1)` and readiness is 503 |

## Left out

- HMAC-SHA256 and the UTF-8 encoding of the secret are not modelled. `mac`
  stands for both. The timing resistance of `compare_digest` cannot be
  expressed here. Only its result is modelled, plus its `TypeError` on
  non-ASCII text.
- JSON decoding of the body is the parameter `decode`. The framework decodes
  the body before the route's dependencies run only when the body is
  non-empty and the request's Content-Type is JSON or absent.
  `Webhook.HandleAsWritten` models that case.
- SQLAlchemy, sessions, the WAL and `busy_timeout` PRAGMAs, and `init_db`
  (app/storage.py) are I/O. The store is an abstract map whose insert fails
  on an existing key.
- Concurrent deliveries of the same id are left out. Their correctness rests
  on SQLite's atomic primary-key check, so ingestion is modelled one request
  at a time.
- The logging middleware, JSON log format, request ids, latency and the
  Prometheus exporter are left out, because they are I/O and clock values.
  The outcome counters are kept as a plain record.
- `created_at` is left out because it comes from the wall clock. The payload
  never sets it, and no modelled behaviour reads it.
- `Models.IsE164` and `Timestamps.IsIsoUtc` accept only ASCII `0`-`9` for
  `\d`. The source's regex engine also accepts other Unicode decimal digits,
  so the model's acceptance is narrower than the source's.
- Pydantic error messages and locations are left out. Only the set of
  failing fields is modelled.
- Query parameters that are not integers, such as `limit=abc`, are refused
  by the framework before `list_messages` runs. The model takes `limit` and
  `offset` as already-parsed integers.
- The order among senders with equal counts is unspecified. `Stats.PickMax`
  picks any of them.
- Reading settings from the environment and `.env` (case-insensitive names)
  is I/O. `Config.Load` takes the values that were found. `LOG_LEVEL` is
  only carried along.
- `Config.Load` applies `Config.UpgradeScheme`, the corrected normaliser,
  not the written one. The two differ only on the URLs listed under
  Findings.
- Exceptions other than the non-ASCII header and the oversized `offset`
  (a database error, say) become a 500 through the middleware. They are not
  modelled.
- `GET /health/live` always answers 200 and reads nothing, so it is not
  modelled.

## Findings

| source | as written | input that shows it | evidently intended | confidence | as-written member | corrected member |
|---|---|---|---|---|---|---|
| app/main.py:135 | `compare_digest` on two `str` values raises `TypeError` if either has a non-ASCII character. Header values are decoded as Latin-1, so the error escapes and the middleware answers 500. No `invalid_signature` count is taken. | `X-Signature` set to the single byte 0xE9, on a JSON body | refuse with 401 and count `invalid_signature` | medium, not executed | `Webhook.NonAsciiSignatureGets500` | `Signature.Check` |
| app/main.py:144-148 | The framework decodes a non-empty body before it runs the `verify_signature` dependency. A body that decodes to text that is not JSON is therefore answered 422, with the decoder's detail and a `validation_error` count, before the signature is checked. A body that `json.loads` cannot decode to text is answered 400 with no count, also before the check. It reads UTF-8, or UTF-16 or UTF-32 when a byte-order mark or NUL bytes among the first four say so. | an unsigned request whose body is `{` with `Content-Type: application/json` | check the signature first and answer 401 | medium, not executed | `Webhook.MalformedUnsignedBodyGets422` | `Webhook.Handle` |
| app/config.py:19-20 | The `aiosqlite` test looks at the whole URL, not just the scheme. A plain `sqlite://` URL whose path mentions `aiosqlite` keeps the synchronous driver, which the async engine rejects. `str.replace` also rewrites any later `sqlite://` in the path. | `sqlite:////data/aiosqlite.db` | replace only the `sqlite://` scheme at the start | medium, not executed | `Config.PathNamingDriverIsNotUpgraded` | `Config.UpgradeScheme` |

For the first two rows, `Webhook.HandleAsWritten` models the request path as
the source runs it, and `Webhook.AsWrittenAgreesOnJson` shows it agrees with
`Webhook.Handle` everywhere else. `Webhook.UndecodableUnsignedBodyGets400`
exhibits the second row's 400 case. The intended order is gate first: an
unauthenticated caller should be refused before anything about the body is
answered. `verify_signature` itself reads the raw bytes for exactly that
reason (app/main.py:124-125). Under the source's order, an unsigned caller
gets the decoder's error detail for a malformed body and a 401 for a
well-formed one, which tells them how their body was parsed.

=== FILE: config.dfy ===
/** Process settings and the database-URL normaliser that upgrades a plain
    `sqlite://` URL to the async driver. */
module Config {
  import opened Results

  /** Defaults of the three settings. An empty secret means "not configured". */
  const DefaultWebhookSecret: string := ""
  const DefaultLogLevel: string := "INFO"

  const SyncScheme: string := "sqlite://"
  const AsyncDriver: string := "aiosqlite"
  /** `sqlite+aiosqlite://` */
  const AsyncScheme: string := "sqlite+" + AsyncDriver + "://"
  /** `sqlite+aiosqlite:////data/app.db` */
  const DefaultDatabaseUrl: string := AsyncScheme + "//data/app.db"

  datatype Settings = Settings(webhookSecret: string, databaseUrl: string, logLevel: string)

  predicate StartsWith(s: string, p: string)
  {
    |p| <= |s| && s[..|p|] == p
  }

  /** `p` occurs in `s` starting at index `i`. */
  predicate OccursAt(s: string, p: string, i: int)
  {
    0 <= i <= |s| - |p| && s[i..i + |p|] == p
  }

  /** Python's `p in s` for strings. */
  predicate Contains(s: string, p: string)
  {
    exists i :: 0 <= i <= |s| - |p| && OccursAt(s, p, i)
  }

  /** Python's `s.replace(pat, rep)` for a non-empty `pat`: occurrences are
      found left to right and do not overlap. */
  function ReplaceAll(s: string, pat: string, rep: string): string
    requires |pat| > 0
    decreases |s|
  {
    if |s| < |pat| then s
    else if s[..|pat|] == pat then rep + ReplaceAll(s[|pat|..], pat, rep)
    else [s[0]] + ReplaceAll(s[1..], pat, rep)
  }

  /** Python's `s.split(pat)`: the pieces between the leftmost
      non-overlapping occurrences of `pat`. */
  function Split(s: string, pat: string): (pieces: seq<string>)
    requires |pat| > 0
    ensures |pieces| >= 1
    decreases |s|
  {
    if |s| < |pat| then [s]
    else if s[..|pat|] == pat then [""] + Split(s[|pat|..], pat)
    else
      var rest := Split(s[1..], pat);
      [[s[0]] + rest[0]] + rest[1..]
  }

  /** Python's `sep.join(pieces)`. */
  function Join(pieces: seq<string>, sep: string): string
    requires |pieces| >= 1
  {
    if |pieces| == 1 then pieces[0] else pieces[0] + sep + Join(pieces[1..], sep)
  }

  /** Joining the pieces with the separator they were split on restores the
      string. */
  lemma {:induction false} SplitJoin(s: string, pat: string)
    requires |pat| > 0
    ensures Join(Split(s, pat), pat) == s
    decreases |s|
  {
    if |s| >= |pat| {
      if s[..|pat|] == pat {
        SplitJoin(s[|pat|..], pat);
        assert s == pat + s[|pat|..];
      } else {
        SplitJoin(s[1..], pat);
        JoinConsHead(s[0], Split(s[1..], pat), pat);
        assert s == [s[0]] + s[1..];
      }
    }
  }

  /** Prepending a character to the first piece prepends it to the join. */
  lemma JoinConsHead(c: char, pieces: seq<string>, sep: string)
    requires |pieces| >= 1
    ensures Join([[c] + pieces[0]] + pieces[1..], sep) == [c] + Join(pieces, sep)
  {
    var ps := [[c] + pieces[0]] + pieces[1..];
    if |pieces| > 1 {
      assert ps[1..] == pieces[1..];
    }
  }

  /** No piece of a split contains the separator. */
  lemma {:induction false} SplitPiecesFree(s: string, pat: string)
    requires |pat| > 0
    ensures forall k :: 0 <= k < |Split(s, pat)| ==> !Contains(Split(s, pat)[k], pat)
    decreases |s|
  {
    var pieces := Split(s, pat);
    if |s| < |pat| {
      assert pieces == [s];
    } else if s[..|pat|] == pat {
      SplitPiecesFree(s[|pat|..], pat);
      assert pieces[1..] == Split(s[|pat|..], pat);
      assert !Contains(pieces[0], pat);
    } else {
      var rest := Split(s[1..], pat);
      SplitPiecesFree(s[1..], pat);
      assert pieces[1..] == rest[1..];
      var head := [s[0]] + rest[0];
      assert !Contains(rest[0], pat);
      forall j | 0 <= j <= |head| - |pat| ensures !OccursAt(head, pat, j) {
        if j == 0 {
          HeadPieceIsPrefix(s[1..], pat);
          assert head[..|pat|] == s[..|pat|];
        } else {
          assert head[j..j + |pat|] == rest[0][j - 1..j - 1 + |pat|];
          assert !OccursAt(rest[0], pat, j - 1);
        }
      }
    }
  }

  /** The first piece of a split is a prefix of the string. */
  lemma {:induction false} HeadPieceIsPrefix(s: string, pat: string)
    requires |pat| > 0
    ensures |Split(s, pat)[0]| <= |s| && s[..|Split(s, pat)[0]|] == Split(s, pat)[0]
    decreases |s|
  {
    if |s| >= |pat| && s[..|pat|] != pat {
      HeadPieceIsPrefix(s[1..], pat);
    }
  }

  /** `s.replace(pat, rep) == rep.join(s.split(pat))`. */
  lemma {:induction false} ReplaceIsSplitJoin(s: string, pat: string, rep: string)
    requires |pat| > 0
    ensures ReplaceAll(s, pat, rep) == Join(Split(s, pat), rep)
    decreases |s|
  {
    if |s| >= |pat| {
      if s[..|pat|] == pat {
        ReplaceIsSplitJoin(s[|pat|..], pat, rep);
      } else {
        ReplaceIsSplitJoin(s[1..], pat, rep);
        JoinConsHead(s[0], Split(s[1..], pat), rep);
      }
    }
  }

  /** A string without the pattern is left as it is. */
  lemma ReplaceAbsent(s: string, pat: string, rep: string)
    requires |pat| > 0 && !Contains(s, pat)
    ensures ReplaceAll(s, pat, rep) == s
    decreases |s|
  {
    if |s| >= |pat| {
      assert !OccursAt(s, pat, 0);
      assert !Contains(s[1..], pat) by {
        if Contains(s[1..], pat) {
          var i :| 0 <= i <= |s[1..]| - |pat| && OccursAt(s[1..], pat, i);
          assert OccursAt(s, pat, i + 1) by {
            assert s[1..][i..i + |pat|] == s[i + 1..i + 1 + |pat|];
          }
        }
      }
      ReplaceAbsent(s[1..], pat, rep);
    }
  }

  /** `Settings.fix_sqlite_driver`: a `sqlite://` URL that does not already
      name `aiosqlite` has every `sqlite://` replaced by
      `sqlite+aiosqlite://`; any other URL is kept. */
  function FixSqliteDriver(v: string): (r: string)
    ensures !StartsWith(v, SyncScheme) ==> r == v
    ensures Contains(v, AsyncDriver) ==> r == v
    ensures StartsWith(v, SyncScheme) && !Contains(v, AsyncDriver) ==>
      && StartsWith(r, AsyncScheme)
      && r == Join(Split(v, SyncScheme), AsyncScheme)
    ensures Contains(r, AsyncDriver) || r == v
  {
    if StartsWith(v, SyncScheme) && !Contains(v, AsyncDriver) then
      var r := ReplaceAll(v, SyncScheme, AsyncScheme);
      ReplaceIsSplitJoin(v, SyncScheme, AsyncScheme);
      assert v[..|SyncScheme|] == SyncScheme;
      assert r[..|AsyncScheme|] == AsyncScheme;
      assert OccursAt(r, AsyncDriver, 7) by {
        assert r[7..16] == AsyncScheme[7..16];
      }
      r
    else v
  }

  /** Normalising twice is normalising once: a rewritten URL names
      `aiosqlite`, which switches the rewrite off. */
  lemma FixIdempotent(v: string)
    ensures FixSqliteDriver(FixSqliteDriver(v)) == FixSqliteDriver(v)
  {
  }

  /** The shipped default already names the async driver and passes through
      unchanged. */
  lemma DefaultUrlUnchanged()
    ensures FixSqliteDriver(DefaultDatabaseUrl) == DefaultDatabaseUrl
  {
    assert OccursAt(DefaultDatabaseUrl, AsyncDriver, 7) by {
      assert DefaultDatabaseUrl[7..16] == AsyncScheme[7..16];
    }
  }

  /** As written, the `aiosqlite` test looks at the whole URL, so a plain
      `sqlite://` URL whose path merely mentions `aiosqlite` keeps the
      synchronous driver, where the intended upgrade would change it. The
      path `//data/aiosqlite.db` with `i == 7` is one such URL. */
  lemma PathNamingDriverIsNotUpgraded(path: string, i: int)
    requires OccursAt(path, AsyncDriver, i)
    ensures var v := SyncScheme + path;
      StartsWith(v, SyncScheme) && FixSqliteDriver(v) == v
      && !StartsWith(FixSqliteDriver(v), AsyncScheme) && UpgradeScheme(v) != v
  {
    var v := SyncScheme + path;
    assert v[..|SyncScheme|] == SyncScheme;
    assert OccursAt(v, AsyncDriver, i + |SyncScheme|) by {
      assert v[i + |SyncScheme|..i + |SyncScheme| + |AsyncDriver|] == path[i..i + |AsyncDriver|];
    }
    assert v[6] != AsyncScheme[6];
  }

  /** The evident intent of the normaliser: a URL with the synchronous
      scheme gets the async scheme in its place, and nothing else changes. */
  function UpgradeScheme(v: string): (r: string)
    ensures StartsWith(v, SyncScheme) ==>
      StartsWith(r, AsyncScheme) && r[|AsyncScheme|..] == v[|SyncScheme|..]
    ensures !StartsWith(v, SyncScheme) ==> r == v
  {
    if StartsWith(v, SyncScheme) then AsyncScheme + v[|SyncScheme|..] else v
  }

  lemma UpgradeSchemeIdempotent(v: string)
    ensures UpgradeScheme(UpgradeScheme(v)) == UpgradeScheme(v)
  {
    if StartsWith(v, SyncScheme) {
      var r := UpgradeScheme(v);
      assert r[6] == '+' && SyncScheme[6] == ':';
    }
  }

  /** Where the URL names the driver nowhere and has the scheme only at its
      start, the intended upgrade and the written one agree. */
  lemma UpgradeSchemeAgrees(v: string)
    requires StartsWith(v, SyncScheme) && !Contains(v, AsyncDriver)
    requires !Contains(v[|SyncScheme|..], SyncScheme)
    ensures UpgradeScheme(v) == FixSqliteDriver(v)
  {
    var tail := v[|SyncScheme|..];
    assert v == SyncScheme + tail;
    assert v[..|SyncScheme|] == SyncScheme;
    ReplaceAbsent(tail, SyncScheme, AsyncScheme);
  }

  /** The settings after loading: each value from the environment when set
      there, else its default; the URL validator also runs on the default.
      The validator used is the intended scheme upgrade. */
  function Load(secret: Option<string>, url: Option<string>, logLevel: Option<string>): (s: Settings)
    ensures secret.None? ==> s.webhookSecret == ""
    ensures url.None? ==> s.databaseUrl == DefaultDatabaseUrl
    ensures url.Some? && !StartsWith(url.value, SyncScheme) ==> s.databaseUrl == url.value
    ensures url.Some? && StartsWith(url.value, SyncScheme) ==> StartsWith(s.databaseUrl, AsyncScheme)
    ensures !StartsWith(s.databaseUrl, SyncScheme)
  {
    assert DefaultDatabaseUrl[6] != SyncScheme[6];
    Settings(secret.GetOr(DefaultWebhookSecret), UpgradeScheme(url.GetOr(DefaultDatabaseUrl)),
             logLevel.GetOr(DefaultLogLevel))
  }
}

=== FILE: hex.dfy ===
/** Lowercase hexadecimal rendering of a byte string, the form of
    `hexdigest()` that the `X-Signature` header carries. */
module Hex {
  import opened Results

  newtype byte = x: int | 0 <= x < 256

  /** A character `hexdigest()` can produce: `0`-`9` or `a`-`f`. */
  predicate IsLowerHexChar(c: char)
  {
    '0' <= c <= '9' || 'a' <= c <= 'f'
  }

  function NibbleChar(n: int): (c: char)
    requires 0 <= n < 16
    ensures IsLowerHexChar(c)
  {
    if n < 10 then ('0' as int + n) as char else ('a' as int + n - 10) as char
  }

  /** The value of a lowercase hex digit; `None` for any other character. */
  function NibbleValue(c: char): (r: Option<int>)
    ensures r.Some? <==> IsLowerHexChar(c)
    ensures r.Some? ==> 0 <= r.value < 16 && NibbleChar(r.value) == c
  {
    if '0' <= c <= '9' then Some(c as int - '0' as int)
    else if 'a' <= c <= 'f' then Some(c as int - 'a' as int + 10)
    else None
  }

  /** Two characters per byte, high nibble first, lowercase. */
  function Encode(b: seq<byte>): (r: string)
    ensures |r| == 2 * |b|
    ensures forall i :: 0 <= i < |r| ==> IsLowerHexChar(r[i])
  {
    if |b| == 0 then ""
    else [NibbleChar(b[0] as int / 16), NibbleChar(b[0] as int % 16)] + Encode(b[1..])
  }

  /** Parses a lowercase hex string back into bytes; `None` on an odd length
      or a character outside `0-9a-f`. */
  function Decode(s: string): (r: Option<seq<byte>>)
    ensures r.Some? ==> 2 * |r.value| == |s|
  {
    if |s| == 0 then Some([])
    else if |s| < 2 then None
    else
      match (NibbleValue(s[0]), NibbleValue(s[1]), Decode(s[2..]))
      case (Some(hi), Some(lo), Some(rest)) => Some([(hi * 16 + lo) as byte] + rest)
      case _ => None
  }

  lemma {:induction false} DecodeEncode(b: seq<byte>)
    ensures Decode(Encode(b)) == Some(b)
  {
    if |b| > 0 {
      var e := Encode(b);
      assert e[2..] == Encode(b[1..]);
      DecodeEncode(b[1..]);
      assert [b[0]] + b[1..] == b;
    }
  }

  /** Distinct digests never render to the same header value. */
  lemma EncodeInjective(a: seq<byte>, b: seq<byte>)
    requires Encode(a) == Encode(b)
    ensures a == b
  {
    DecodeEncode(a);
    DecodeEncode(b);
  }
}

=== FILE: lifecycle.dfy ===
/** The fail-closed start-up check and the two health endpoints. */
module Lifecycle {
  import opened Results
  import opened Config

  /** Start-up either runs the service or stops it by raising `SystemExit`
      with the given code; the status the process then ends with is chosen
      by the ASGI server, which sees the start-up fail. */
  datatype Startup = Running | Exit(code: int)

  /** A secret counts as configured when it is non-empty. */
  predicate SecretConfigured(s: Settings)
  {
    s.webhookSecret != ""
  }

  /** `lifespan` start-up: an empty secret raises `SystemExit(1)` before
      the store is touched, so the service does not start. */
  function Start(s: Settings): (r: Startup)
    ensures r.Running? <==> SecretConfigured(s)
    ensures r.Exit? ==> r.code == 1
  {
    if s.webhookSecret == "" then Exit(1) else Running
  }

  /** `GET /health/ready`: 503 while the secret is missing, else 200. */
  function Readiness(s: Settings): (status: int)
    ensures status == 200 <==> SecretConfigured(s)
    ensures status != 200 ==> status == 503
  {
    if s.webhookSecret == "" then 503 else 200
  }

  /** A process that got past start-up always reports ready, and one that
      would report unready never starts. */
  lemma StartedMeansReady(s: Settings)
    ensures Start(s).Running? <==> Readiness(s) == 200
  {
  }

  /** Without `WEBHOOK_SECRET` in the environment the secret defaults to
      the empty string, so the service refuses to start. */
  lemma DefaultSecretRefusesStart(url: Option<string>, logLevel: Option<string>)
    ensures Start(Load(None, url, logLevel)) == Exit(1)
    ensures Readiness(Load(None, url, logLevel)) == 503
  {
  }
}

=== FILE: models.dfy ===
/** The message record, the validation of an inbound webhook payload, and
    the response shape of a listed message, with the `from`/`to` wire names. */
module Models {
  import opened Results
  import opened Timestamps

  /** A JSON value as far as validation cares: a string, `null`, or anything
      else (number, boolean, array, object), which no field here accepts. */
  datatype Json = JString(s: string) | JNull | JOther

  /** A decoded JSON object: member name to value. */
  type JsonObject = map<string, Json>

  /** Longest `text` a payload may carry, in characters. */
  const MaxTextLength: nat := 4096

  /** Wire names of the payload and response members. */
  const MessageIdKey: string := "message_id"
  const FromKey: string := "from"
  const ToKey: string := "to"
  const TsKey: string := "ts"
  const TextKey: string := "text"

  /** A payload member that failed validation; `Body` is the request body as a
      whole (not JSON, or not an object). */
  datatype Field = MessageIdField | FromField | ToField | TsField | TextField | Body

  /** A validated webhook payload. */
  datatype Payload = Payload(messageId: string, fromMsisdn: string, toMsisdn: string, ts: string, text: Option<string>)

  /** A stored row of the `messages` table (the server-assigned `created_at`
      column is not modelled). */
  datatype Message = Message(messageId: string, fromMsisdn: string, toMsisdn: string, ts: string, text: Option<string>)

  /** One element of the `data` list of `GET /messages`. */
  datatype MessageResponse = MessageResponse(messageId: string, fromMsisdn: string, toMsisdn: string, ts: string, text: Option<string>)

  predicate IsNonZeroDigit(c: char)
  {
    '1' <= c <= '9'
  }

  /** The pattern `^\+[1-9]\d{1,14}$` with ASCII digits. */
  predicate IsE164(s: string)
  {
    && |s| >= 2
    && s[0] == '+'
    && IsNonZeroDigit(s[1])
    && 1 <= |s[2..]| <= 14
    && forall i :: 0 <= i < |s[2..]| ==> IsDigit(s[2..][i])
  }

  /** The field constraints of a payload, one conjunct per member. */
  predicate ValidPayload(p: Payload)
  {
    && |p.messageId| >= 1
    && IsE164(p.fromMsisdn)
    && IsE164(p.toMsisdn)
    && IsIsoUtc(p.ts)
    && (p.text.Some? ==> |p.text.value| <= MaxTextLength)
  }

  /** A row built from a valid payload. */
  predicate ValidMessage(m: Message)
  {
    ValidPayload(Payload(m.messageId, m.fromMsisdn, m.toMsisdn, m.ts, m.text))
  }

  lemma E164Shape(s: string)
    ensures IsE164(s) <==>
      && 3 <= |s| <= 16
      && s[0] == '+'
      && IsNonZeroDigit(s[1])
      && forall i :: 2 <= i < |s| ==> IsDigit(s[i])
  {
    if 3 <= |s| <= 16 && forall i :: 2 <= i < |s| ==> IsDigit(s[i]) {
      forall i | 0 <= i < |s[2..]| ensures IsDigit(s[2..][i]) {
        assert s[2..][i] == s[i + 2];
      }
    }
  }

  /** `key` is present and holds a JSON string. */
  predicate HasString(obj: JsonObject, key: string)
  {
    key in obj && obj[key].JString?
  }

  /** Whether one member of `obj` passes its constraint. `text` has a default
      (`None`), so it may be absent or `null`; the others are required. */
  predicate FieldOk(obj: JsonObject, f: Field)
  {
    match f
    case MessageIdField => HasString(obj, MessageIdKey) && |obj[MessageIdKey].s| >= 1
    case FromField => HasString(obj, FromKey) && IsE164(obj[FromKey].s)
    case ToField => HasString(obj, ToKey) && IsE164(obj[ToKey].s)
    case TsField => HasString(obj, TsKey) && IsIsoUtc(obj[TsKey].s)
    case TextField =>
      TextKey !in obj || obj[TextKey].JNull? || (obj[TextKey].JString? && |obj[TextKey].s| <= MaxTextLength)
    case Body => true
  }

  /** Every failing member; validation reports all of them at once. */
  function FieldErrors(obj: JsonObject): (errs: set<Field>)
    ensures forall f :: f in errs <==> !FieldOk(obj, f)
  {
    (if FieldOk(obj, MessageIdField) then {} else {MessageIdField})
    + (if FieldOk(obj, FromField) then {} else {FromField})
    + (if FieldOk(obj, ToField) then {} else {ToField})
    + (if FieldOk(obj, TsField) then {} else {TsField})
    + (if FieldOk(obj, TextField) then {} else {TextField})
  }

  /** `WebhookPayload` validation of a decoded JSON object. Only the wire names
      are read (`from`, not `from_msisdn`); unknown members are ignored. */
  function ParsePayload(obj: JsonObject): (r: Result<Payload, set<Field>>)
    ensures r.Success? ==> ValidPayload(r.value)
    ensures r.Success? ==>
      && MessageIdKey in obj && obj[MessageIdKey] == JString(r.value.messageId)
      && FromKey in obj && obj[FromKey] == JString(r.value.fromMsisdn)
      && ToKey in obj && obj[ToKey] == JString(r.value.toMsisdn)
      && TsKey in obj && obj[TsKey] == JString(r.value.ts)
      && (r.value.text.Some? ==> TextKey in obj && obj[TextKey] == JString(r.value.text.value))
      && (r.value.text.None? ==> TextKey !in obj || obj[TextKey] == JNull)
    ensures r.Failure? ==> r.error != {} && forall f :: f in r.error <==> !FieldOk(obj, f)
    ensures MessageIdKey !in obj || FromKey !in obj || ToKey !in obj || TsKey !in obj ==> r.Failure?
  {
    var errs := FieldErrors(obj);
    if errs != {} then Failure(errs)
    else
      assert FieldOk(obj, MessageIdField) && FieldOk(obj, FromField) && FieldOk(obj, ToField);
      assert FieldOk(obj, TsField) && FieldOk(obj, TextField);
      var text := if TextKey in obj && obj[TextKey].JString? then Some(obj[TextKey].s) else None;
      Success(Payload(obj[MessageIdKey].s, obj[FromKey].s, obj[ToKey].s, obj[TsKey].s, text))
  }

  /** The JSON object a client sends for a payload; `text` is omitted when
      absent. */
  function ToWire(p: Payload): (obj: JsonObject)
    ensures obj.Keys == {MessageIdKey, FromKey, ToKey, TsKey} + (if p.text.Some? then {TextKey} else {})
  {
    var base := map[MessageIdKey := JString(p.messageId), FromKey := JString(p.fromMsisdn),
                     ToKey := JString(p.toMsisdn), TsKey := JString(p.ts)];
    if p.text.Some? then base[TextKey := JString(p.text.value)] else base
  }

  /** The row inserted for a payload: every client field copied unchanged. */
  function ToRow(p: Payload): (m: Message)
    ensures ValidPayload(p) ==> ValidMessage(m)
  {
    Message(p.messageId, p.fromMsisdn, p.toMsisdn, p.ts, p.text)
  }

  /** `MessageResponse` read from a row's attributes. */
  function ToResponse(m: Message): MessageResponse
  {
    MessageResponse(m.messageId, m.fromMsisdn, m.toMsisdn, m.ts, m.text)
  }

  /** The row a response was read from. */
  function RowOf(r: MessageResponse): Message
  {
    Message(r.messageId, r.fromMsisdn, r.toMsisdn, r.ts, r.text)
  }

  /** Serialisation by alias: `from_msisdn` leaves as `from`, `to_msisdn` as
      `to`, and an absent `text` as `null`. */
  function Dump(r: MessageResponse): (obj: JsonObject)
    ensures obj.Keys == {MessageIdKey, FromKey, ToKey, TsKey, TextKey}
    ensures "from_msisdn" !in obj && "to_msisdn" !in obj
  {
    map[MessageIdKey := JString(r.messageId), FromKey := JString(r.fromMsisdn),
        ToKey := JString(r.toMsisdn), TsKey := JString(r.ts),
        TextKey := if r.text.Some? then JString(r.text.value) else JNull]
  }

  lemma RowResponseRoundTrip(m: Message)
    ensures RowOf(ToResponse(m)) == m
  {
  }

  /** A valid payload, as a client sends it, is accepted and read back
      exactly. */
  lemma WireRoundTrip(p: Payload)
    requires ValidPayload(p)
    ensures ParsePayload(ToWire(p)) == Success(p)
  {
    var obj := ToWire(p);
    assert FieldOk(obj, MessageIdField) && FieldOk(obj, FromField) && FieldOk(obj, ToField);
    assert FieldOk(obj, TsField) && FieldOk(obj, TextField);
    assert FieldErrors(obj) == {};
  }

  /** Payload to stored row to listed item: the listed item, read as a
      payload again, is the original payload, so all five client fields
      survive under their wire names. */
  lemma ListedItemRoundTrip(p: Payload)
    requires ValidPayload(p)
    ensures ParsePayload(Dump(ToResponse(ToRow(p)))) == Success(p)
  {
    var obj := Dump(ToResponse(ToRow(p)));
    assert FieldOk(obj, MessageIdField) && FieldOk(obj, FromField) && FieldOk(obj, ToField);
    assert FieldOk(obj, TsField) && FieldOk(obj, TextField);
    assert FieldErrors(obj) == {};
  }

  /** Validation reads only the five wire names: members under any other
      name, including the attribute names `from_msisdn`/`to_msisdn`, change
      nothing. */
  lemma ExtraMembersIgnored(obj: JsonObject, extra: JsonObject)
    requires extra.Keys !! {MessageIdKey, FromKey, ToKey, TsKey, TextKey}
    ensures ParsePayload(obj + extra) == ParsePayload(obj)
  {
    var both := obj + extra;
    forall f ensures FieldOk(both, f) == FieldOk(obj, f) {
    }
    assert FieldErrors(both) == FieldErrors(obj);
  }
}

=== FILE: query.dfy ===
/** `GET /messages`: conjunctive filters, the canonical order on
    `(ts, message_id)`, the page `[offset, offset + limit)`, and a count over
    the same filters. */
module Query {
  import opened Results
  import opened SqlText
  import opened Timestamps
  import opened Models
  import opened MessageStore

  const DefaultLimit: int := 50
  const MaxLimit: int := 100
  const DefaultOffset: int := 0

  /** The optional filters `from`, `since` and `q`. */
  datatype Filters = Filters(from: Option<string>, since: Option<string>, q: Option<string>)

  /** The query string: absent parameters are `None`. */
  datatype ListParams = ListParams(limit: Option<int>, offset: Option<int>, filters: Filters)

  /** The largest value SQLite binds as an INTEGER (a signed 64-bit
      number); the driver raises on a larger `offset`. */
  const MaxSqlInteger: int := 0x7FFF_FFFF_FFFF_FFFF

  /** A query parameter that failed its range constraint. */
  datatype Param = LimitParam | OffsetParam

  /** Why no page is returned: 422 naming the parameters out of range, or
      the 500 the logging middleware answers when binding the `offset` to
      SQLite raises. */
  datatype ListError = OutOfRange(params: set<Param>) | SqlIntegerOverflow

  /** The response body: the page, the filtered count, and the effective
      `limit` and `offset`. */
  datatype Page = Page(data: seq<MessageResponse>, total: nat, limit: int, offset: int)

  /** A filter applies only when given and non-empty. */
  predicate Active(p: Option<string>)
  {
    p.Some? && p.value != ""
  }

  /** The `WHERE` clause: exact sender, `ts >= since` as text, and
      `text ILIKE '%q%'`, which a NULL `text` never satisfies. */
  predicate Matches(m: Message, f: Filters)
  {
    && (Active(f.from) ==> m.fromMsisdn == f.from.value)
    && (Active(f.since) ==> LexLe(f.since.value, m.ts))
    && (Active(f.q) ==> m.text.Some? && Like(m.text.value, "%" + f.q.value + "%"))
  }

  /** The rows a filter selects. */
  ghost function Matching(store: Store, f: Filters): set<Message>
  {
    set m | m in store.Values && Matches(m, f)
  }

  /** The listing order: `ts` ascending, then `message_id` ascending. */
  predicate Before(a: Message, b: Message)
  {
    LexLess(a.ts, b.ts) || (a.ts == b.ts && LexLess(a.messageId, b.messageId))
  }

  predicate StrictlySorted(xs: seq<Message>)
  {
    forall i, j :: 0 <= i < j < |xs| ==> Before(xs[i], xs[j])
  }

  /** The number of rows of `s` listed before `m`: the position `m` takes in
      the ordered listing of `s`. */
  ghost function Rank(s: set<Message>, m: Message): nat
  {
    |set x | x in s && Before(x, m)|
  }

  /** Length of the page `[offset, offset + limit)` of `total` rows. */
  function PageLength(total: nat, limit: nat, offset: nat): nat
  {
    if offset >= total then 0 else if limit < total - offset then limit else total - offset
  }

  lemma BeforeIrreflexive(a: Message)
    ensures !Before(a, a)
  {
    LexLessIrreflexive(a.ts);
    LexLessIrreflexive(a.messageId);
  }

  lemma BeforeAsymmetric(a: Message, b: Message)
    requires Before(a, b)
    ensures !Before(b, a)
  {
    if LexLess(a.ts, b.ts) {
      LexLessAsymmetric(a.ts, b.ts);
      LexLessIrreflexive(a.ts);
    } else {
      LexLessIrreflexive(a.ts);
      LexLessAsymmetric(a.messageId, b.messageId);
    }
  }

  lemma BeforeTransitive(a: Message, b: Message, c: Message)
    requires Before(a, b) && Before(b, c)
    ensures Before(a, c)
  {
    if LexLess(a.ts, b.ts) && LexLess(b.ts, c.ts) {
      LexLessTransitive(a.ts, b.ts, c.ts);
    } else if a.ts == b.ts && b.ts == c.ts {
      LexLessTransitive(a.messageId, b.messageId, c.messageId);
    }
  }

  /** Rows with different ids are always ordered: the order is total on a
      store. */
  lemma BeforeTotal(a: Message, b: Message)
    requires a.messageId != b.messageId
    ensures Before(a, b) || Before(b, a)
  {
    if a.ts != b.ts {
      LexLessTotal(a.ts, b.ts);
    } else {
      LexLessTotal(a.messageId, b.messageId);
    }
  }

  /** Places `x` into an ordered listing. */
  function InsertSorted(xs: seq<Message>, x: Message): (r: seq<Message>)
    requires StrictlySorted(xs)
    requires forall i :: 0 <= i < |xs| ==> xs[i].messageId != x.messageId
    ensures StrictlySorted(r)
    ensures |r| == |xs| + 1
    ensures forall m :: m in r <==> m in xs || m == x
  {
    if |xs| == 0 then [x]
    else if Before(x, xs[0]) then
      var r := [x] + xs;
      forall j | 1 <= j < |r| ensures Before(x, r[j]) {
        if j > 1 {
          BeforeTransitive(x, xs[0], xs[j - 1]);
        }
      }
      r
    else
      BeforeTotal(x, xs[0]);
      var tail := InsertSorted(xs[1..], x);
      assert forall m :: m in xs[1..] ==> Before(xs[0], m);
      [xs[0]] + tail
  }

  /** The elements of an ordered listing are distinct. */
  lemma {:induction false} SortedCard(xs: seq<Message>)
    requires StrictlySorted(xs)
    ensures |set m | m in xs| == |xs|
  {
    if |xs| > 0 {
      var tail := xs[1..];
      assert StrictlySorted(tail);
      SortedCard(tail);
      assert (set m | m in xs) == {xs[0]} + (set m | m in tail);
      BeforeIrreflexive(xs[0]);
      assert xs[0] !in tail;
    }
  }

  /** In an ordered listing, the element at position `j` has exactly `j`
      elements of the listing before it. */
  lemma SortedRank(xs: seq<Message>, j: int)
    requires StrictlySorted(xs) && 0 <= j < |xs|
    ensures Rank((set m | m in xs), xs[j]) == j
  {
    var s := set m | m in xs;
    var below := set x | x in s && Before(x, xs[j]);
    assert below == set m | m in xs[..j] by {
      forall x | x in below ensures x in xs[..j] {
        var i :| 0 <= i < |xs| && xs[i] == x;
        if i == j {
          BeforeIrreflexive(x);
        } else if i > j {
          BeforeAsymmetric(xs[j], xs[i]);
        }
      }
    }
    assert StrictlySorted(xs[..j]);
    SortedCard(xs[..j]);
  }

  /** Distinct rows of a store have distinct ranks, so a rank picks out one
      row. */
  lemma RankInjective(s: set<Message>, a: Message, b: Message)
    requires forall x, y :: x in s && y in s && x != y ==> x.messageId != y.messageId
    requires a in s && b in s && a != b
    ensures Rank(s, a) != Rank(s, b)
  {
    BeforeTotal(a, b);
    if Before(a, b) {
      RankGrows(s, a, b);
    } else {
      RankGrows(s, b, a);
    }
  }

  lemma RankGrows(s: set<Message>, a: Message, b: Message)
    requires a in s && Before(a, b)
    ensures Rank(s, a) < Rank(s, b)
  {
    var below := set x | x in s && Before(x, a);
    var belowB := set x | x in s && Before(x, b);
    forall x | x in below ensures x in belowB {
      BeforeTransitive(x, a, b);
    }
    BeforeIrreflexive(a);
    var extra := belowB - below;
    assert a in extra;
    assert belowB == below + extra && below * extra == {};
    assert |extra| >= 1;
  }

  /** In a well-formed store a row is in the store exactly when it sits
      under its own id. */
  lemma InStoreValues(store: Store, m: Message)
    requires WellFormed(store)
    ensures m in store.Values <==> m.messageId in store && store[m.messageId] == m
  {
    if m in store.Values {
      var k :| k in store && store[k] == m;
    }
  }

  /** The rows a filter selects, in listing order. */
  method SelectSorted(store: Store, f: Filters) returns (sorted: seq<Message>)
    requires WellFormed(store)
    ensures StrictlySorted(sorted)
    ensures forall m :: m in sorted <==> m in Matching(store, f)
  {
    sorted := [];
    var rest := store.Keys;
    while rest != {}
      invariant rest <= store.Keys
      invariant StrictlySorted(sorted)
      invariant forall m :: m in sorted <==> m in Matching(store, f) && m.messageId !in rest
      decreases |rest|
    {
      var k :| k in rest;
      forall m | m in Matching(store, f) ensures m.messageId in store && store[m.messageId] == m {
        InStoreValues(store, m);
      }
      if Matches(store[k], f) {
        assert store[k] in Matching(store, f);
        sorted := InsertSorted(sorted, store[k]);
      }
      rest := rest - {k};
    }
  }

  /** The filtered count and the requested page of the ordered listing. */
  method SelectPage(store: Store, f: Filters, limit: nat, offset: nat) returns (total: nat, page: seq<Message>)
    requires WellFormed(store)
    ensures total == |Matching(store, f)|
    ensures |page| == PageLength(total, limit, offset)
    ensures forall i :: 0 <= i < |page| ==>
      page[i] in Matching(store, f) && Rank(Matching(store, f), page[i]) == offset + i
    ensures forall i, j :: 0 <= i < j < |page| ==> Before(page[i], page[j])
  {
    var sorted := SelectSorted(store, f);
    ghost var s := Matching(store, f);
    assert (set m | m in sorted) == s;
    SortedCard(sorted);
    total := |sorted|;
    var n := PageLength(total, limit, offset);
    page := if offset >= total then [] else sorted[offset..offset + n];
    forall i | 0 <= i < |page| ensures Rank(s, page[i]) == offset + i {
      SortedRank(sorted, offset + i);
    }
  }

  predicate LimitOk(limit: Option<int>)
  {
    limit.None? || 1 <= limit.value <= MaxLimit
  }

  predicate OffsetOk(offset: Option<int>)
  {
    offset.None? || offset.value >= 0
  }

  /** `list_messages`. Out-of-range `limit` or `offset` is refused with 422
      naming the offending parameters; an `offset` too large for a SQLite
      INTEGER makes the query raise, answered 500; otherwise the page holds
      the rows the filters select, those of rank `offset` to
      `offset + limit - 1` in the listing order, and `total` counts all
      selected rows whatever the paging. */
  method ListMessages(store: Store, params: ListParams) returns (r: Result<Page, ListError>)
    requires WellFormed(store)
    ensures (r.Failure? && r.error.OutOfRange?) <==> !LimitOk(params.limit) || !OffsetOk(params.offset)
    ensures r.Failure? && r.error.OutOfRange? ==>
      && (LimitParam in r.error.params <==> !LimitOk(params.limit))
      && (OffsetParam in r.error.params <==> !OffsetOk(params.offset))
    ensures (r.Failure? && r.error.SqlIntegerOverflow?) <==>
      LimitOk(params.limit) && OffsetOk(params.offset) && params.offset.GetOr(DefaultOffset) > MaxSqlInteger
    ensures r.Success? ==>
      && r.value.limit == params.limit.GetOr(DefaultLimit)
      && r.value.offset == params.offset.GetOr(DefaultOffset)
    ensures r.Success? ==> r.value.total == |Matching(store, params.filters)|
    ensures r.Success? ==>
      && 1 <= r.value.limit <= MaxLimit && 0 <= r.value.offset <= MaxSqlInteger
      && |r.value.data| == PageLength(r.value.total, r.value.limit, r.value.offset)
    ensures r.Success? ==> forall i :: 0 <= i < |r.value.data| ==>
      && RowOf(r.value.data[i]) in Matching(store, params.filters)
      && Rank(Matching(store, params.filters), RowOf(r.value.data[i])) == r.value.offset + i
    ensures r.Success? ==> forall i, j :: 0 <= i < j < |r.value.data| ==>
      Before(RowOf(r.value.data[i]), RowOf(r.value.data[j]))
  {
    if !LimitOk(params.limit) || !OffsetOk(params.offset) {
      var errs := (if LimitOk(params.limit) then {} else {LimitParam})
                + (if OffsetOk(params.offset) then {} else {OffsetParam});
      return Failure(OutOfRange(errs));
    }
    if params.offset.GetOr(DefaultOffset) > MaxSqlInteger {
      return Failure(SqlIntegerOverflow);
    }
    var limit := params.limit.GetOr(DefaultLimit);
    var offset := params.offset.GetOr(DefaultOffset);
    var total, page := SelectPage(store, params.filters, limit, offset);
    var data := seq(|page|, i requires 0 <= i < |page| => ToResponse(page[i]));
    assert forall i :: 0 <= i < |page| ==> RowOf(data[i]) == page[i];
    r := Success(Page(data, total, limit, offset));
  }

  /** Filters combine by conjunction: the rows selected by all three are
      the rows each one selects on its own, intersected. */
  lemma FiltersConjunctive(store: Store, f: Filters)
    ensures Matching(store, f) ==
      Matching(store, Filters(f.from, None, None))
      * Matching(store, Filters(None, f.since, None))
      * Matching(store, Filters(None, None, f.q))
  {
  }

  /** A missing or empty parameter applies no filter. */
  lemma EmptyFiltersSelectAll(store: Store)
    ensures Matching(store, Filters(None, None, None)) == store.Values
    ensures Matching(store, Filters(Some(""), Some(""), Some(""))) == store.Values
  {
  }

  /** With no filter, the listing's `total` counts every row: it equals the
      `total_messages` that `/stats` reports for the same table. */
  lemma UnfilteredTotalIsRowCount(store: Store)
    requires WellFormed(store)
    ensures |Matching(store, Filters(None, None, None))| == |store|
  {
    EmptyFiltersSelectAll(store);
    ValuesCount(store);
  }

  /** Without LIKE wildcards in it, `q` is a case-insensitive substring
      test, and a row with no text never matches. */
  lemma QFilterIsSubstring(m: Message, q: string)
    requires q != "" && NoWildcard(q)
    ensures Matches(m, Filters(None, None, Some(q))) <==> m.text.Some? && ContainsFold(m.text.value, q)
  {
    if m.text.Some? {
      LikeIsContainsFold(m.text.value, q);
    }
  }

  /** For stored rows and a well-formed `since`, the text comparison keeps
      exactly the rows at or after that instant. */
  lemma SinceFilterIsChronological(m: Message, since: string)
    requires ValidMessage(m) && IsIsoUtc(since)
    ensures Matches(m, Filters(None, Some(since), None)) <==> Instant(since) <= Instant(m.ts)
  {
    TimestampOrder(since, m.ts);
  }
}

=== FILE: results.dfy ===
/** Optional values and success/failure results, used for nullable columns,
    absent request fields and the error paths of validation. */
module Results {

  /** A value that may be absent: a SQL NULL, a JSON null or a missing field. */
  datatype Option<+T> = None | Some(value: T) {

    /** Returns the carried value, or `default` when there is none. */
    function GetOr(default: T): T {
      match this
      case Some(v) => v
      case None => default
    }
  }

  /** The outcome of a step that can fail with an error value. */
  datatype Result<+R, +E> = Success(value: R) | Failure(error: E)
}

=== FILE: signature.dfy ===
/** The `X-Signature` gate in front of `POST /webhook`. HMAC-SHA256 is not
    modelled: it is the parameter `mac`, the digest of the raw body keyed
    with the UTF-8 encoding of the shared secret. */
module Signature {
  import opened Results
  import opened Hex

  /** HMAC-SHA256(key = secret, message = raw body), as digest bytes. */
  type Mac = (string, seq<byte>) -> seq<byte>

  /** What the gate does with a request as the source is written: let it
      through, answer 401, or fail with an exception (answered 500). */
  datatype GateOutcome = Pass | Fail | Crash

  predicate IsAscii(s: string)
  {
    forall i :: 0 <= i < |s| ==> s[i] < 128 as char
  }

  /** The header value the gate expects for a body. */
  function Expected(secret: string, mac: Mac, body: seq<byte>): (e: string)
    ensures IsAscii(e) && |e| == 2 * |mac(secret, body)|
  {
    Encode(mac(secret, body))
  }

  /** `verify_signature` as written. A missing or empty header is refused.
      Otherwise `compare_digest` compares it with the expected hex digest;
      for text arguments that function raises `TypeError` when either holds
      a non-ASCII character, and header values arrive decoded as Latin-1, so
      a header carrying a byte of 0x80 or above ends the request with an
      exception instead of a refusal. */
  function CheckAsWritten(secret: string, mac: Mac, header: Option<string>, body: seq<byte>): (g: GateOutcome)
    ensures g == Pass ==> header.Some? && header.value == Expected(secret, mac, body) && header.value != ""
    ensures g == Crash <==> header.Some? && header.value != "" && !IsAscii(header.value)
  {
    if header.None? || header.value == "" then Fail
    else if !IsAscii(header.value) then Crash
    else if header.value == Expected(secret, mac, body) then Pass
    else Fail
  }

  /** A header holding the single character U+00E9 (the byte 0xE9 read as
      Latin-1) is not refused with 401: the comparison raises, and no
      `invalid_signature` count is taken. */
  lemma NonAsciiHeaderCrashes(secret: string, mac: Mac, body: seq<byte>)
    ensures CheckAsWritten(secret, mac, Some("\U{00E9}"), body) == Crash
  {
    var h := "\U{00E9}";
    assert h[0] == '\U{00E9}';
    assert !IsAscii(h);
  }

  /** The gate as intended: a request passes exactly when the header is
      present, non-empty and equal to the lowercase hex HMAC of the exact
      body bytes; every other request is refused. */
  function Check(secret: string, mac: Mac, header: Option<string>, body: seq<byte>): (ok: bool)
    ensures ok <==> header.Some? && header.value != "" && header.value == Encode(mac(secret, body))
  {
    header.Some? && header.value != "" && CheckAsWritten(secret, mac, header, body) == Pass
  }

  /** On ASCII headers (every header a sender computing `hexdigest()` sends)
      the gate as written and the intended gate agree. */
  lemma CheckAgreesOnAscii(secret: string, mac: Mac, header: Option<string>, body: seq<byte>)
    requires header.Some? ==> IsAscii(header.value)
    ensures CheckAsWritten(secret, mac, header, body) == (if Check(secret, mac, header, body) then Pass else Fail)
  {
  }

  /** A signature binds the body: one header value that passes for two
      bodies means their digests collide. */
  lemma SignatureBindsBody(secret: string, mac: Mac, header: Option<string>, b1: seq<byte>, b2: seq<byte>)
    requires Check(secret, mac, header, b1) && Check(secret, mac, header, b2)
    ensures mac(secret, b1) == mac(secret, b2)
  {
    EncodeInjective(mac(secret, b1), mac(secret, b2));
  }

  /** Changing the body (so that its digest changes) turns a passing request
      into a refused one. */
  lemma TamperedBodyRejected(secret: string, mac: Mac, header: Option<string>, body: seq<byte>, tampered: seq<byte>)
    requires Check(secret, mac, header, body)
    requires mac(secret, tampered) != mac(secret, body)
    ensures !Check(secret, mac, header, tampered)
  {
    if Check(secret, mac, header, tampered) {
      SignatureBindsBody(secret, mac, header, body, tampered);
    }
  }
}

=== FILE: sqltext.dfy ===
/** Text semantics of the SQLite store that the queries rely on: the BINARY
    collation used by `ORDER BY`, `>=`, `min` and `max` on TEXT columns, and
    the `LIKE` operator used by case-insensitive search.

    SQLite compares TEXT by the bytes of its UTF-8 encoding, and UTF-8 byte
    order coincides with code-point order, so the collation is modelled as
    lexicographic order on `char` code points. */
module SqlText {

  /** Strict lexicographic order: a proper prefix comes first. */
  predicate LexLess(a: string, b: string)
  {
    |b| > 0 && (|a| == 0 || a[0] < b[0] || (a[0] == b[0] && LexLess(a[1..], b[1..])))
  }

  /** Non-strict lexicographic order (SQL `a <= b` under BINARY collation). */
  predicate LexLe(a: string, b: string)
  {
    a == b || LexLess(a, b)
  }

  lemma {:induction false} LexLessIrreflexive(a: string)
    ensures !LexLess(a, a)
  {
    if |a| > 0 {
      LexLessIrreflexive(a[1..]);
    }
  }

  lemma {:induction false} LexLessTransitive(a: string, b: string, c: string)
    requires LexLess(a, b) && LexLess(b, c)
    ensures LexLess(a, c)
  {
    if |a| > 0 && a[0] == b[0] && b[0] == c[0] {
      LexLessTransitive(a[1..], b[1..], c[1..]);
    }
  }

  /** Any two distinct strings are ordered one way or the other. */
  lemma {:induction false} LexLessTotal(a: string, b: string)
    requires a != b
    ensures LexLess(a, b) || LexLess(b, a)
  {
    if |a| > 0 && |b| > 0 && a[0] == b[0] {
      assert a == [a[0]] + a[1..] && b == [b[0]] + b[1..];
      LexLessTotal(a[1..], b[1..]);
    }
  }

  lemma {:induction false} LexLessAsymmetric(a: string, b: string)
    requires LexLess(a, b)
    ensures !LexLess(b, a)
  {
    if |a| > 0 && a[0] == b[0] {
      LexLessAsymmetric(a[1..], b[1..]);
    }
  }

  lemma LexLeTransitive(a: string, b: string, c: string)
    requires LexLe(a, b) && LexLe(b, c)
    ensures LexLe(a, c)
  {
    if a != b && b != c {
      LexLessTransitive(a, b, c);
    }
  }

  /** `LexLe` is the complement of the reversed strict order. */
  lemma LexLeIffNotGreater(a: string, b: string)
    ensures LexLe(a, b) <==> !LexLess(b, a)
  {
    if a == b {
      LexLessIrreflexive(a);
    } else {
      LexLessTotal(a, b);
      if LexLess(a, b) {
        LexLessAsymmetric(a, b);
      }
    }
  }

  /** ASCII-only lower-casing, the folding SQLite's `lower()` and `LIKE`
      apply without the ICU extension. */
  function Lower(c: char): (r: char)
    ensures 'A' <= c <= 'Z' ==> 'a' <= r <= 'z' && r as int - c as int == 32
    ensures !('A' <= c <= 'Z') ==> r == c
  {
    if 'A' <= c <= 'Z' then (c as int + 32) as char else c
  }

  /** Equal lengths and equal characters after ASCII folding. */
  predicate FoldEq(x: string, y: string)
  {
    |x| == |y| && forall j :: 0 <= j < |x| ==> Lower(x[j]) == Lower(y[j])
  }

  /** `q` occurs in `t` starting at index `i`, ignoring ASCII case. */
  predicate FoldMatchAt(t: string, q: string, i: int)
  {
    0 <= i <= |t| - |q| && FoldEq(t[i..i + |q|], q)
  }

  /** `q` occurs in `t` as a contiguous run, ignoring ASCII case. */
  predicate ContainsFold(t: string, q: string)
  {
    exists i :: 0 <= i <= |t| - |q| && FoldMatchAt(t, q, i)
  }

  /** `q` holds neither of LIKE's wildcard characters. */
  predicate NoWildcard(q: string)
  {
    forall i :: 0 <= i < |q| ==> q[i] != '%' && q[i] != '_'
  }

  /** SQLite `s LIKE p` with ASCII case folding and no ESCAPE clause:
      `%` matches any run of characters, `_` exactly one character, and
      every other pattern character one character equal to it up to case. */
  predicate Like(s: string, p: string)
    decreases |s| + |p|
  {
    if |p| == 0 then |s| == 0
    else if p[0] == '%' then Like(s, p[1..]) || (|s| > 0 && Like(s[1..], p))
    else |s| > 0 && (p[0] == '_' || Lower(p[0]) == Lower(s[0])) && Like(s[1..], p[1..])
  }

  lemma {:induction false} LikePercentMatchesAll(s: string)
    ensures Like(s, "%")
  {
    if |s| > 0 {
      LikePercentMatchesAll(s[1..]);
    }
  }

  /** A wildcard-free pattern followed by `%` matches exactly the strings that
      start with it, up to case. */
  lemma {:induction false} LikePrefix(s: string, q: string)
    requires NoWildcard(q)
    ensures Like(s, q + "%") <==> |s| >= |q| && FoldEq(s[..|q|], q)
  {
    if |q| == 0 {
      assert q + "%" == "%";
      LikePercentMatchesAll(s);
    } else {
      assert (q + "%")[1..] == q[1..] + "%";
      assert NoWildcard(q[1..]);
      if |s| > 0 {
        LikePrefix(s[1..], q[1..]);
        if |s| >= |q| {
          assert FoldEq(s[..|q|], q) <==>
            Lower(s[0]) == Lower(q[0]) && FoldEq(s[1..][..|q[1..]|], q[1..]);
        }
      }
    }
  }

  /** A leading `%` tries every suffix of the subject. */
  lemma {:induction false} LikeLeadingPercent(s: string, r: string)
    ensures Like(s, "%" + r) <==> exists i :: 0 <= i <= |s| && Like(s[i..], r)
  {
    assert ("%" + r)[1..] == r;
    assert s[0..] == s;
    if |s| > 0 {
      LikeLeadingPercent(s[1..], r);
      if Like(s, "%" + r) && !Like(s, r) {
        var i :| 0 <= i <= |s[1..]| && Like(s[1..][i..], r);
        assert s[1..][i..] == s[i + 1..];
      }
      if exists i :: 0 <= i <= |s| && Like(s[i..], r) {
        var i :| 0 <= i <= |s| && Like(s[i..], r);
        if i > 0 {
          assert s[1..][i - 1..] == s[i..];
        }
      }
    }
  }

  /** The search pattern `%q%` built for the `q` filter is a case-insensitive
      substring test when `q` has no wildcard characters. */
  lemma LikeIsContainsFold(t: string, q: string)
    requires NoWildcard(q)
    ensures Like(t, "%" + q + "%") <==> ContainsFold(t, q)
  {
    assert "%" + q + "%" == "%" + (q + "%");
    LikeLeadingPercent(t, q + "%");
    if Like(t, "%" + q + "%") {
      var i :| 0 <= i <= |t| && Like(t[i..], q + "%");
      LikePrefix(t[i..], q);
      assert t[i..][..|q|] == t[i..i + |q|];
      assert FoldMatchAt(t, q, i);
    }
    if ContainsFold(t, q) {
      var i :| 0 <= i <= |t| - |q| && FoldMatchAt(t, q, i);
      LikePrefix(t[i..], q);
      assert t[i..][..|q|] == t[i..i + |q|];
    }
  }
}

=== FILE: stats.dfy ===
/** `GET /stats`: row count, distinct senders, the ten busiest senders, and
    the earliest and latest `ts`, over the whole unfiltered store. */
module Stats {
  import opened Results
  import opened SqlText
  import opened Models
  import opened MessageStore

  /** How many senders `messages_per_sender` lists at most. */
  const TopSendersLimit: nat := 10

  datatype SenderCount = SenderCount(from: string, count: nat)

  datatype Stats = Stats(
    totalMessages: nat,
    sendersCount: nat,
    messagesPerSender: seq<SenderCount>,
    firstMessageTs: Option<string>,
    lastMessageTs: Option<string>)

  /** Distinct `from_msisdn` values among the rows whose keys are in `ks`. */
  ghost function SendersIn(store: Store, ks: set<string>): set<string>
  {
    set k | k in ks && k in store :: store[k].fromMsisdn
  }

  /** Keys in `ks` of the rows sent by `s`. */
  ghost function SentIn(store: Store, ks: set<string>, s: string): set<string>
  {
    set k | k in ks && k in store && store[k].fromMsisdn == s
  }

  ghost function Senders(store: Store): set<string>
  {
    SendersIn(store, store.Keys)
  }

  /** The number of rows sent by `s`. */
  ghost function CountFrom(store: Store, s: string): nat
  {
    |SentIn(store, store.Keys, s)|
  }

  /** There are never more distinct senders than rows. */
  lemma {:induction false} SendersBound(store: Store, ks: set<string>)
    requires ks <= store.Keys
    ensures |SendersIn(store, ks)| <= |ks|
    decreases |ks|
  {
    if ks != {} {
      var k :| k in ks;
      var rest := ks - {k};
      SendersBound(store, rest);
      assert SendersIn(store, ks) == SendersIn(store, rest) + {store[k].fromMsisdn};
    }
  }

  /** Taking one more row `k` into account: its sender gains one row and
      nobody else changes. */
  lemma CountStep(store: Store, done: set<string>, k: string)
    requires k in store && k !in done
    ensures var s := store[k].fromMsisdn;
      && SendersIn(store, done + {k}) == SendersIn(store, done) + {s}
      && |SentIn(store, done + {k}, s)| == |SentIn(store, done, s)| + 1
      && (forall t :: t != s ==> SentIn(store, done + {k}, t) == SentIn(store, done, t))
      && (s !in SendersIn(store, done) ==> SentIn(store, done, s) == {})
  {
    var s := store[k].fromMsisdn;
    assert SentIn(store, done + {k}, s) == SentIn(store, done, s) + {k};
    assert k !in SentIn(store, done, s);
    if s !in SendersIn(store, done) {
      forall j | j in done && j in store ensures store[j].fromMsisdn != s {
        assert store[j].fromMsisdn in SendersIn(store, done);
      }
    }
  }

  /** Messages per sender, for every sender in the store. */
  method CountBySender(store: Store) returns (counts: map<string, nat>)
    ensures counts.Keys == Senders(store)
    ensures forall s :: s in counts ==> counts[s] == CountFrom(store, s) && counts[s] >= 1
  {
    counts := map[];
    var rest := store.Keys;
    while rest != {}
      invariant rest <= store.Keys
      invariant counts.Keys == SendersIn(store, store.Keys - rest)
      invariant forall s :: s in counts ==> counts[s] == |SentIn(store, store.Keys - rest, s)| && counts[s] >= 1
      decreases |rest|
    {
      var k :| k in rest;
      var s := store[k].fromMsisdn;
      ghost var done := store.Keys - rest;
      ghost var done' := done + {k};
      CountStep(store, done, k);
      counts := counts[s := if s in counts then counts[s] + 1 else 1];
      rest := rest - {k};
      assert store.Keys - rest == done';
    }
    assert store.Keys - rest == store.Keys;
  }

  /** A candidate with the highest count; which one among equals is left
      open. */
  method PickMax(counts: map<string, nat>, candidates: set<string>) returns (best: string)
    requires candidates != {} && candidates <= counts.Keys
    ensures best in candidates
    ensures forall s :: s in candidates ==> counts[s] <= counts[best]
  {
    best :| best in candidates;
    var rest := candidates - {best};
    while rest != {}
      invariant rest <= candidates && best in candidates
      invariant forall s :: s in candidates - rest ==> counts[s] <= counts[best]
      decreases |rest|
    {
      var s :| s in rest;
      if counts[s] > counts[best] {
        best := s;
      }
      rest := rest - {s};
    }
  }

  /** `GROUP BY from_msisdn ORDER BY count DESC LIMIT 10`: up to ten
      distinct senders with their true counts, busiest first, and no
      omitted sender busier than a listed one. Ties come in no promised
      order. */
  method TopSenders(counts: map<string, nat>) returns (top: seq<SenderCount>)
    ensures |top| == if |counts| < TopSendersLimit then |counts| else TopSendersLimit
    ensures forall i :: 0 <= i < |top| ==> top[i].from in counts && top[i].count == counts[top[i].from]
    ensures forall i, j :: 0 <= i < j < |top| ==> top[i].from != top[j].from
    ensures forall i, j :: 0 <= i < j < |top| ==> top[i].count >= top[j].count
    ensures forall s :: s in counts && (forall i :: 0 <= i < |top| ==> top[i].from != s) ==>
      forall i :: 0 <= i < |top| ==> counts[s] <= top[i].count
  {
    top := [];
    var remaining := counts.Keys;
    while |top| < TopSendersLimit && remaining != {}
      invariant remaining <= counts.Keys
      invariant |top| <= TopSendersLimit
      invariant |top| + |remaining| == |counts|
      invariant forall s :: s in counts ==> (s in remaining <==> forall i :: 0 <= i < |top| ==> top[i].from != s)
      invariant forall i :: 0 <= i < |top| ==> top[i].from in counts && top[i].count == counts[top[i].from]
      invariant forall i, j :: 0 <= i < j < |top| ==> top[i].from != top[j].from
      invariant forall i, j :: 0 <= i < j < |top| ==> top[i].count >= top[j].count
      invariant forall s, i :: s in remaining && 0 <= i < |top| ==> counts[s] <= top[i].count
      decreases |remaining|
    {
      var best := PickMax(counts, remaining);
      ghost var before := top;
      top := top + [SenderCount(best, counts[best])];
      remaining := remaining - {best};
      forall s | s in counts
        ensures s in remaining <==> forall i :: 0 <= i < |top| ==> top[i].from != s
      {
        assert forall i :: 0 <= i < |before| ==> top[i] == before[i];
        assert top[|before|].from == best;
      }
    }
  }

  /** `min(ts)` and `max(ts)` under text order; both absent on an empty
      store. */
  method TsRange(store: Store) returns (first: Option<string>, last: Option<string>)
    ensures first.None? <==> store == map[]
    ensures last.None? <==> store == map[]
    ensures first.Some? ==>
      && (exists k :: k in store && store[k].ts == first.value)
      && (forall k :: k in store ==> LexLe(first.value, store[k].ts))
    ensures last.Some? ==>
      && (exists k :: k in store && store[k].ts == last.value)
      && (forall k :: k in store ==> LexLe(store[k].ts, last.value))
  {
    if store == map[] {
      return None, None;
    }
    var k0 :| k0 in store;
    var lo, hi := store[k0].ts, store[k0].ts;
    var rest := store.Keys - {k0};
    while rest != {}
      invariant rest <= store.Keys
      invariant exists k :: k in store && store[k].ts == lo
      invariant exists k :: k in store && store[k].ts == hi
      invariant forall k :: k in store && k !in rest ==> LexLe(lo, store[k].ts) && LexLe(store[k].ts, hi)
      decreases |rest|
    {
      var k :| k in rest;
      var t := store[k].ts;
      LexLeIffNotGreater(lo, t);
      LexLeIffNotGreater(t, hi);
      if LexLess(t, lo) {
        forall j | j in store && j !in rest ensures LexLe(t, store[j].ts) {
          LexLeTransitive(t, lo, store[j].ts);
        }
        lo := t;
      }
      if LexLess(hi, t) {
        forall j | j in store && j !in rest ensures LexLe(store[j].ts, t) {
          LexLeTransitive(store[j].ts, hi, t);
        }
        hi := t;
      }
      rest := rest - {k};
    }
    return Some(lo), Some(hi);
  }

  /** `get_stats`. */
  method GetStats(store: Store) returns (st: Stats)
    ensures st.totalMessages == |store|
    ensures st.sendersCount == |Senders(store)| && st.sendersCount <= st.totalMessages
    ensures |st.messagesPerSender| == if st.sendersCount < TopSendersLimit then st.sendersCount else TopSendersLimit
    ensures forall i :: 0 <= i < |st.messagesPerSender| ==>
      var e := st.messagesPerSender[i]; e.from in Senders(store) && e.count == CountFrom(store, e.from) && e.count >= 1
    ensures forall i, j :: 0 <= i < j < |st.messagesPerSender| ==>
      && st.messagesPerSender[i].from != st.messagesPerSender[j].from
      && st.messagesPerSender[i].count >= st.messagesPerSender[j].count
    ensures forall s :: s in Senders(store) && (forall i :: 0 <= i < |st.messagesPerSender| ==> st.messagesPerSender[i].from != s) ==>
      forall i :: 0 <= i < |st.messagesPerSender| ==> CountFrom(store, s) <= st.messagesPerSender[i].count
    ensures store == map[] ==> st.totalMessages == 0 && st.sendersCount == 0 && st.messagesPerSender == []
    ensures st.firstMessageTs.None? <==> store == map[]
    ensures st.firstMessageTs.None? <==> st.lastMessageTs.None?
    ensures st.firstMessageTs.Some? ==>
      && (forall k :: k in store ==> LexLe(st.firstMessageTs.value, store[k].ts) && LexLe(store[k].ts, st.lastMessageTs.value))
      && (exists k :: k in store && store[k].ts == st.firstMessageTs.value)
      && (exists k :: k in store && store[k].ts == st.lastMessageTs.value)
      && LexLe(st.firstMessageTs.value, st.lastMessageTs.value)
  {
    var counts := CountBySender(store);
    SendersBound(store, store.Keys);
    var top := TopSenders(counts);
    var first, last := TsRange(store);
    st := Stats(|store|, |counts.Keys|, top, first, last);
  }
}

=== FILE: store.dfy ===
/** The `messages` table as an abstract store: a finite map from
    `message_id` to its row, with the primary-key insert that fails on an
    existing key. */
module MessageStore {
  import opened Models

  type Store = map<string, Message>

  /** Every row sits under its own `message_id`. */
  predicate WellFormed(store: Store)
  {
    forall k :: k in store ==> store[k].messageId == k
  }

  /** Every row passed payload validation on its way in. */
  predicate AllValid(store: Store)
  {
    forall k :: k in store ==> ValidMessage(store[k])
  }

  datatype InsertResult = Inserted(store: Store) | IntegrityError

  /** `INSERT` under the primary-key constraint: a new key adds exactly this
      row; an existing key is a conflict and the store is not touched. */
  function Insert(store: Store, m: Message): (r: InsertResult)
    ensures r.IntegrityError? <==> m.messageId in store
    ensures r.Inserted? ==>
      && r.store.Keys == store.Keys + {m.messageId}
      && r.store[m.messageId] == m
      && (forall k :: k in store ==> r.store[k] == store[k])
      && |r.store| == |store| + 1
    ensures r.Inserted? && WellFormed(store) ==> WellFormed(r.store)
    ensures r.Inserted? && AllValid(store) && ValidMessage(m) ==> AllValid(r.store)
  {
    if m.messageId in store then IntegrityError else Inserted(store[m.messageId := m])
  }

  /** In a well-formed store distinct keys hold distinct rows, so counting
      rows counts keys. */
  lemma {:induction false} ValuesCount(store: Store)
    requires WellFormed(store)
    ensures |store.Values| == |store|
    decreases |store|
  {
    if |store| > 0 {
      var k :| k in store;
      var rest := map j | j in store && j != k :: store[j];
      assert rest.Keys == store.Keys - {k};
      assert store.Values == rest.Values + {store[k]} by {
        forall v | v in store.Values ensures v in rest.Values + {store[k]} {
          var j :| j in store && store[j] == v;
          if j != k {
            assert rest[j] == v;
          }
        }
      }
      forall j | j in rest ensures rest[j] != store[k] {
        assert rest[j].messageId == j;
      }
      ValuesCount(rest);
    }
  }
}

=== FILE: timestamps.dfy ===
/** The fixed-width UTC timestamp format `YYYY-MM-DDTHH:MM:SSZ` accepted for
    the `ts` field, and why comparing such timestamps as text (which the store
    does for `since`, `ORDER BY ts`, `min` and `max`) compares them in time. */
module Timestamps {
  import opened SqlText

  /** The shape of a valid timestamp: `#` stands for one ASCII digit, every
      other character must appear literally. */
  const Template: string := "####-##-##T##:##:##Z"

  predicate IsDigit(c: char)
  {
    '0' <= c <= '9'
  }

  function DigitValue(c: char): (n: nat)
    requires IsDigit(c)
    ensures n < 10
  {
    c as int - '0' as int
  }

  /** One character against one template position. */
  predicate MatchesClass(c: char, t: char)
  {
    if t == '#' then IsDigit(c) else c == t
  }

  /** `s` has the template's length and matches it position by position. */
  predicate Conforms(s: string, tpl: string)
  {
    |s| == |tpl| && forall i :: 0 <= i < |s| ==> MatchesClass(s[i], tpl[i])
  }

  /** The `ts` field constraint: the whole string matches
      `\d{4}-\d{2}-\d{2}T\d{2}:\d{2}:\d{2}Z` with ASCII digits. */
  predicate IsIsoUtc(s: string)
  {
    Conforms(s, Template)
  }

  /** The template spelled out position by position. */
  lemma IsoUtcPositions(s: string)
    ensures IsIsoUtc(s) <==>
      && |s| == 20
      && (forall i :: i in {0, 1, 2, 3, 5, 6, 8, 9, 11, 12, 14, 15, 17, 18} ==> 0 <= i < |s| && IsDigit(s[i]))
      && s[4] == '-' && s[7] == '-' && s[10] == 'T'
      && s[13] == ':' && s[16] == ':' && s[19] == 'Z'
  {
    var digits := {0, 1, 2, 3, 5, 6, 8, 9, 11, 12, 14, 15, 17, 18};
    forall i | 0 <= i < 20 ensures (Template[i] == '#') == (i in digits) {
    }
  }

  function Pow10(n: nat): (r: nat)
    ensures r > 0
  {
    if n == 0 then 1 else 10 * Pow10(n - 1)
  }

  /** Number of digit positions in a template. */
  function DigitCount(tpl: string): nat
  {
    if |tpl| == 0 then 0 else (if tpl[0] == '#' then 1 else 0) + DigitCount(tpl[1..])
  }

  /** The decimal number spelled by the digit positions of `s`, read left to
      right and skipping the literal positions. */
  function DigitsValue(s: string, tpl: string): nat
    requires Conforms(s, tpl)
  {
    if |s| == 0 then 0
    else
      ConformsTail(s, tpl);
      if tpl[0] == '#' then DigitValue(s[0]) * Pow10(DigitCount(tpl[1..])) + DigitsValue(s[1..], tpl[1..])
      else DigitsValue(s[1..], tpl[1..])
  }

  /** The point in time as the 14-digit number YYYYMMDDhhmmss. */
  function Instant(s: string): nat
    requires IsIsoUtc(s)
  {
    DigitsValue(s, Template)
  }

  lemma ConformsTail(s: string, tpl: string)
    requires Conforms(s, tpl) && |s| > 0
    ensures Conforms(s[1..], tpl[1..])
  {
    forall i | 0 <= i < |s| - 1 ensures MatchesClass(s[1..][i], tpl[1..][i]) {
      assert MatchesClass(s[i + 1], tpl[i + 1]);
    }
  }

  lemma {:induction false} DigitsValueBound(s: string, tpl: string)
    requires Conforms(s, tpl)
    ensures DigitsValue(s, tpl) < Pow10(DigitCount(tpl))
  {
    if |s| > 0 {
      ConformsTail(s, tpl);
      DigitsValueBound(s[1..], tpl[1..]);
      if tpl[0] == '#' {
        var p := Pow10(DigitCount(tpl[1..]));
        assert Pow10(DigitCount(tpl)) == 10 * p;
        LeadingDigitDecides(DigitValue(s[0]), 10, p, DigitsValue(s[1..], tpl[1..]), 0);
      }
    }
  }

  /** A smaller leading digit outweighs any difference in the lower digits. */
  lemma LeadingDigitDecides(da: nat, db: nat, p: nat, va: nat, vb: nat)
    requires da < db && va < p && vb < p
    ensures da * p + va < db * p + vb
  {
    assert (da + 1) * p <= db * p;
  }

  /** For two strings of the same template, text order is numeric order of
      the digits they spell. */
  lemma {:induction false} TextOrderIsValueOrder(a: string, b: string, tpl: string)
    requires Conforms(a, tpl) && Conforms(b, tpl)
    ensures LexLe(a, b) <==> DigitsValue(a, tpl) <= DigitsValue(b, tpl)
  {
    if |a| > 0 {
      var a', b', t' := a[1..], b[1..], tpl[1..];
      ConformsTail(a, tpl);
      ConformsTail(b, tpl);
      assert MatchesClass(a[0], tpl[0]) && MatchesClass(b[0], tpl[0]);
      if a[0] == b[0] {
        assert a == [a[0]] + a' && b == [b[0]] + b';
        assert LexLess(a, b) == LexLess(a', b');
        TextOrderIsValueOrder(a', b', t');
      } else {
        assert tpl[0] == '#';
        var p := Pow10(DigitCount(t'));
        DigitsValueBound(a', t');
        DigitsValueBound(b', t');
        var da, db := DigitValue(a[0]), DigitValue(b[0]);
        assert DigitsValue(a, tpl) == da * p + DigitsValue(a', t');
        assert DigitsValue(b, tpl) == db * p + DigitsValue(b', t');
        if a[0] < b[0] {
          LeadingDigitDecides(da, db, p, DigitsValue(a', t'), DigitsValue(b', t'));
        } else {
          LeadingDigitDecides(db, da, p, DigitsValue(b', t'), DigitsValue(a', t'));
        }
      }
    }
  }

  /** Comparing two valid timestamps as text compares the instants they
      denote: text order on `ts` is chronological order. */
  lemma TimestampOrder(a: string, b: string)
    requires IsIsoUtc(a) && IsIsoUtc(b)
    ensures LexLe(a, b) <==> Instant(a) <= Instant(b)
    ensures a == b <==> Instant(a) == Instant(b)
  {
    TextOrderIsValueOrder(a, b, Template);
    TextOrderIsValueOrder(b, a, Template);
    LexLeIffNotGreater(a, b);
    LexLeIffNotGreater(b, a);
    if a != b {
      LexLessTotal(a, b);
      if LexLess(a, b) {
        LexLessAsymmetric(a, b);
      } else {
        LexLessAsymmetric(b, a);
      }
    }
  }
}

=== FILE: webhook.dfy ===
/** `POST /webhook`: the signature gate, payload validation, and the
    idempotent insert, together with the per-outcome request counters. */
module Webhook {
  import opened Results
  import opened Hex
  import opened Models
  import opened MessageStore
  import opened Signature

  /** The `webhook_requests_total` counter, one value per `result` label. */
  datatype Counters = Counters(created: nat, duplicate: nat, invalidSignature: nat, validationError: nat)

  /** Everything a webhook request can change. */
  datatype Server = Server(store: Store, counters: Counters)

  /** The parts of an HTTP request the endpoint reads: the `X-Signature`
      header, if sent, and the raw body bytes. */
  datatype Request = Request(signature: Option<string>, body: seq<byte>)

  /** The endpoint's answers: `Ok` is 200 `{"status":"ok"}`; `BadRequest`
      the framework's 400 for a body it cannot read as text; `ServerError`
      the 500 produced when an exception escapes the handler. */
  datatype Reply = Ok | BadRequest | Unauthorized | Unprocessable(errors: set<Field>) | ServerError

  /** A non-empty raw body as the framework's `json.loads` sees it: bytes
      it cannot decode to text (it reads UTF-8, or UTF-16 or UTF-32 when a
      byte-order mark or NUL bytes among the first four say so), decoded
      text that is not JSON, JSON that is not an object, or a JSON object.
      The framework decodes only a non-empty body; an empty one is not
      looked at by `decode`. */
  datatype Decoded = NotText | NotJson | NotObject | Object(obj: JsonObject)

  /** JSON decoding of the raw body, done by the framework. */
  type Decoder = seq<byte> -> Decoded

  datatype Outcome = Created | Duplicate

  function Sum(c: Counters): nat
  {
    c.created + c.duplicate + c.invalidSignature + c.validationError
  }

  /** `receive_webhook` after validation: build the row from the payload and
      insert it; a key conflict is rolled back and reported as a duplicate. */
  function Ingest(store: Store, p: Payload): (r: (Store, Outcome))
    ensures r.1 == Created <==> p.messageId !in store
    ensures r.1 == Duplicate ==> r.0 == store
    ensures r.1 == Created ==>
      && r.0.Keys == store.Keys + {p.messageId}
      && r.0[p.messageId] == ToRow(p)
      && (forall k :: k in store ==> r.0[k] == store[k])
      && |r.0| == |store| + 1
    ensures WellFormed(store) ==> WellFormed(r.0)
    ensures AllValid(store) && ValidPayload(p) ==> AllValid(r.0)
  {
    match Insert(store, ToRow(p))
    case Inserted(s) => (s, Created)
    case IntegrityError => (store, Duplicate)
  }

  /** 401: counted as `invalid_signature`, nothing else changes. */
  function Refuse(server: Server): (r: (Server, Reply))
    ensures r.0.store == server.store && r.1 == Unauthorized
    ensures Sum(r.0.counters) == Sum(server.counters) + 1
    ensures r.0.counters.invalidSignature == server.counters.invalidSignature + 1
  {
    (server.(counters := server.counters.(invalidSignature := server.counters.invalidSignature + 1)), Unauthorized)
  }

  /** 422: counted as `validation_error`, nothing else changes. */
  function Reject(server: Server, errs: set<Field>): (r: (Server, Reply))
    ensures r.0.store == server.store && r.1 == Unprocessable(errs)
    ensures Sum(r.0.counters) == Sum(server.counters) + 1
    ensures r.0.counters.validationError == server.counters.validationError + 1
  {
    (server.(counters := server.counters.(validationError := server.counters.validationError + 1)), Unprocessable(errs))
  }

  /** What the framework and the handler do with a decoded non-empty body:
      a body that cannot be decoded to text is answered 400 and counted
      nowhere; otherwise
      payload validation, then the idempotent insert, answered 200 whether
      the row was new or not. */
  function Accept(server: Server, d: Decoded): (r: (Server, Reply))
    ensures r.1.Ok? <==> d.Object? && ParsePayload(d.obj).Success?
    ensures r.1 == BadRequest <==> d.NotText?
    ensures r.1 == BadRequest ==> r.0 == server
    ensures !r.1.Ok? && !d.NotText? ==> r.1.Unprocessable? && r == Reject(server, r.1.errors) && r.1.errors != {}
    ensures r.1.Ok? ==> r.0.store == Ingest(server.store, ParsePayload(d.obj).value).0
    ensures r.1.Ok? ==>
      && r.0.counters.invalidSignature == server.counters.invalidSignature
      && r.0.counters.validationError == server.counters.validationError
      && r.0.counters.created + r.0.counters.duplicate == server.counters.created + server.counters.duplicate + 1
      && r.0.counters.created == server.counters.created + (if |r.0.store| > |server.store| then 1 else 0)
  {
    match d
    case NotText => (server, BadRequest)
    case NotJson => Reject(server, {Body})
    case NotObject => Reject(server, {Body})
    case Object(obj) =>
      match ParsePayload(obj)
      case Failure(errs) => Reject(server, errs)
      case Success(p) =>
        var c := server.counters;
        var (store', outcome) := Ingest(server.store, p);
        if outcome == Created then
          (Server(store', c.(created := c.created + 1)), Ok)
        else
          (Server(store', c.(duplicate := c.duplicate + 1)), Ok)
  }

  /** The body after a passed gate: an empty body is a missing required
      body, refused with 422 and counted as a validation error; a non-empty
      one is decoded and handled by `Accept`. */
  function AcceptBody(server: Server, decode: Decoder, body: seq<byte>): (r: (Server, Reply))
    ensures |body| == 0 ==> r == Reject(server, {Body})
    ensures |body| > 0 ==> r == Accept(server, decode(body))
  {
    if |body| == 0 then Reject(server, {Body}) else Accept(server, decode(body))
  }

  /** One webhook request, with the signature checked on the raw bytes
      before anything about the body is looked at. Exactly one counter moves
      by one per request, except for the 400 on a body that cannot be
      decoded to text, which the source counts nowhere. */
  function Handle(server: Server, secret: string, mac: Mac, decode: Decoder, req: Request): (r: (Server, Reply))
    ensures r.1 == Unauthorized <==> !Check(secret, mac, req.signature, req.body)
    ensures r.1.Ok? <==>
      && Check(secret, mac, req.signature, req.body)
      && |req.body| > 0
      && decode(req.body).Object?
      && ParsePayload(decode(req.body).obj).Success?
    ensures r.1 == BadRequest <==>
      Check(secret, mac, req.signature, req.body) && |req.body| > 0 && decode(req.body).NotText?
    ensures r.1 == BadRequest ==> r.0 == server
    ensures !r.1.ServerError?
    ensures !r.1.Ok? ==> r.0.store == server.store
    ensures r.1.Ok? ==> r.0.store == Ingest(server.store, ParsePayload(decode(req.body).obj).value).0
    ensures Sum(r.0.counters) == Sum(server.counters) + (if r.1 == BadRequest then 0 else 1)
    ensures r.0.counters.invalidSignature == server.counters.invalidSignature + (if r.1.Unauthorized? then 1 else 0)
    ensures r.0.counters.validationError == server.counters.validationError + (if r.1.Unprocessable? then 1 else 0)
    ensures r.0.counters.created + r.0.counters.duplicate ==
            server.counters.created + server.counters.duplicate + (if r.1.Ok? then 1 else 0)
    ensures r.0.counters.created == server.counters.created + (if |r.0.store| > |server.store| then 1 else 0)
  {
    if !Check(secret, mac, req.signature, req.body) then Refuse(server)
    else AcceptBody(server, decode, req.body)
  }

  /** The request as the source runs it. The framework decodes a non-empty
      body before it runs the route's dependencies: bytes it cannot decode
      to text are answered 400, and decoded text that is not JSON 422,
      before the signature
      is looked at; an empty body is not decoded, and goes through the gate
      first. The gate as written raises on a non-ASCII header, which the
      logging middleware turns into a 500 with no counter moved. */
  function HandleAsWritten(server: Server, secret: string, mac: Mac, decode: Decoder, req: Request): (r: (Server, Reply))
    ensures |req.body| > 0 && decode(req.body).NotText? ==> r == (server, BadRequest)
    ensures |req.body| > 0 && decode(req.body).NotJson? ==> r == Reject(server, {Body})
    ensures r.1.ServerError? ==> r.0 == server
  {
    if |req.body| > 0 && decode(req.body).NotText? then (server, BadRequest)
    else if |req.body| > 0 && decode(req.body).NotJson? then Reject(server, {Body})
    else
      match CheckAsWritten(secret, mac, req.signature, req.body)
      case Crash => (server, ServerError)
      case Fail => Refuse(server)
      case Pass => AcceptBody(server, decode, req.body)
  }

  /** For an empty body or one that decodes as JSON, and an ASCII header,
      the source and the gate-first handler agree. */
  lemma AsWrittenAgreesOnJson(server: Server, secret: string, mac: Mac, decode: Decoder, req: Request)
    requires |req.body| == 0 || decode(req.body).NotObject? || decode(req.body).Object?
    requires req.signature.Some? ==> IsAscii(req.signature.value)
    ensures HandleAsWritten(server, secret, mac, decode, req) == Handle(server, secret, mac, decode, req)
  {
    CheckAgreesOnAscii(secret, mac, req.signature, req.body);
  }

  /** An unsigned request whose non-empty body decodes to text that is not
      JSON: the source answers 422 and counts a validation error, where the
      gate should answer 401. */
  lemma MalformedUnsignedBodyGets422(server: Server, secret: string, mac: Mac, decode: Decoder, body: seq<byte>)
    requires |body| > 0 && decode(body).NotJson?
    ensures HandleAsWritten(server, secret, mac, decode, Request(None, body)).1 == Unprocessable({Body})
    ensures Handle(server, secret, mac, decode, Request(None, body)).1 == Unauthorized
  {
  }

  /** A header with a non-ASCII character on a JSON body: the source
      answers 500 and counts nothing, where the gate should answer 401. */
  lemma NonAsciiSignatureGets500(server: Server, secret: string, mac: Mac, decode: Decoder, body: seq<byte>)
    requires |body| == 0 || decode(body).NotObject? || decode(body).Object?
    ensures HandleAsWritten(server, secret, mac, decode, Request(Some("\U{00E9}"), body)) == (server, ServerError)
    ensures Handle(server, secret, mac, decode, Request(Some("\U{00E9}"), body)).1 == Unauthorized
  {
    NonAsciiHeaderCrashes(secret, mac, body);
    assert !IsAscii("\U{00E9}") by {
      assert "\U{00E9}"[0] == '\U{00E9}';
    }
  }

  /** An unsigned request whose non-empty body cannot be decoded to text
      (neither UTF-8 nor a UTF-16 or UTF-32 that `json.loads` detects): the
      source answers 400 and counts nothing, where the gate should answer
      401. */
  lemma UndecodableUnsignedBodyGets400(server: Server, secret: string, mac: Mac, decode: Decoder, body: seq<byte>)
    requires |body| > 0 && decode(body).NotText?
    ensures HandleAsWritten(server, secret, mac, decode, Request(None, body)) == (server, BadRequest)
    ensures Handle(server, secret, mac, decode, Request(None, body)).1 == Unauthorized
  {
  }

  /** An unsigned request with an empty body is not decoded, so the source
      already runs the gate first: 401, counted as `invalid_signature`,
      whatever the decoder would make of no bytes. */
  lemma EmptyUnsignedBodyGets401(server: Server, secret: string, mac: Mac, decode: Decoder)
    ensures HandleAsWritten(server, secret, mac, decode, Request(None, [])) == Refuse(server)
    ensures Handle(server, secret, mac, decode, Request(None, [])) == Refuse(server)
  {
  }

  /** The answer to an unsigned or badly signed request does not depend on
      its body's content as JSON: nothing about the payload reaches a caller
      who failed the gate. */
  lemma RejectedBeforeDecoding(server: Server, secret: string, mac: Mac, d1: Decoder, d2: Decoder, req: Request)
    requires !Check(secret, mac, req.signature, req.body)
    ensures Handle(server, secret, mac, d1, req) == Handle(server, secret, mac, d2, req)
  {
  }

  /** Delivering the same request twice gives the same answer, and the
      second delivery leaves the store as the first left it. */
  lemma RetryIsIdempotent(server: Server, secret: string, mac: Mac, decode: Decoder, req: Request)
    ensures var (s1, r1) := Handle(server, secret, mac, decode, req);
      var (s2, r2) := Handle(s1, secret, mac, decode, req);
      r2 == r1 && s2.store == s1.store
      && (r1.Ok? ==> s2.counters.duplicate == s1.counters.duplicate + 1)
  {
  }

  /** The rows in the store are exactly the requests counted as `created`,
      on a server that started empty; every row is well formed and valid. */
  predicate Accounted(server: Server)
  {
    && WellFormed(server.store)
    && AllValid(server.store)
    && |server.store| == server.counters.created
  }

  lemma HandlePreservesAccounted(server: Server, secret: string, mac: Mac, decode: Decoder, req: Request)
    requires Accounted(server)
    ensures Accounted(Handle(server, secret, mac, decode, req).0)
  {
  }

  /** Feeding payloads to the idempotent insert one after another. */
  function IngestAll(store: Store, ps: seq<Payload>): Store
    decreases |ps|
  {
    if |ps| == 0 then store else IngestAll(Ingest(store, ps[0]).0, ps[1..])
  }

  /** Index of the first payload carrying `id`, if any. */
  function FirstWith(ps: seq<Payload>, id: string): (r: Option<nat>)
    ensures r.Some? ==>
      && r.value < |ps| && ps[r.value].messageId == id
      && forall j :: 0 <= j < r.value ==> ps[j].messageId != id
    ensures r.None? ==> forall j :: 0 <= j < |ps| ==> ps[j].messageId != id
  {
    if |ps| == 0 then None
    else if ps[0].messageId == id then Some(0)
    else match FirstWith(ps[1..], id)
      case None => None
      case Some(i) => Some(i + 1)
  }

  /** First write wins: after any sequence of deliveries a pre-existing row
      is untouched, a new id holds the row of the first payload that carried
      it, and no other id appears. */
  lemma {:induction false} FirstWriteWins(store: Store, ps: seq<Payload>, id: string)
    ensures var s := IngestAll(store, ps);
      && (id in store ==> id in s && s[id] == store[id])
      && (id !in store && FirstWith(ps, id).Some? ==> id in s && s[id] == ToRow(ps[FirstWith(ps, id).value]))
      && (id !in store && FirstWith(ps, id).None? ==> id !in s)
    decreases |ps|
  {
    if |ps| > 0 {
      var next := Ingest(store, ps[0]).0;
      FirstWriteWins(next, ps[1..], id);
      if id !in store && ps[0].messageId != id {
        assert id !in next;
        assert FirstWith(ps[1..], id).Some? ==> FirstWith(ps, id).value == FirstWith(ps[1..], id).value + 1;
      }
    }
  }
}
